=== FILE: README.md ===
# youbili-api in Dafny

youbili-api takes a YouTube or Bilibili page URL and answers with a `VideoInfo`:
the video id, a title, an uploader, an optional thumbnail and a list of
download formats. Each format has a quality label, a container, a size label
and a URL. The pieces modelled here are:

- **the URL classifier.** Substring tests decide the platform. Regular
  expressions extract the video id: `v=`, `youtu.be/` and `embed/` for
  YouTube, `video/` and `b23.tv/` for Bilibili.
- **the strategy chains.** These are in `api/youtube.js` (y2mate → 9xbuddy →
  ssyoutube → savefrom) and `api/bilibili.js` (injahow → BiliGet →
  weibomiaopai → the official API). A chain tries each upstream in order,
  takes the first one that does not throw, and fails only when every
  upstream failed.
- **the response mappers.** Each one turns an upstream's JSON into formats. It
  keeps the upstream's own defaults: `'未知'` for missing labels, `''` for
  missing URLs, positional quality labels, the quality-code table, and the
  stable sort by parsed quality.
- **the static fallback lists.** These are the site links built from the id
  alone.
- **the Vercel handler** (`vercel-api/api/video-info.js`). It tries two
  upstreams per platform and then a static list. Answers are kept in a
  one-hour in-memory cache keyed by `video:<url>`.
- **the two other handlers.** `api/index.js` answers with three static site
  links. `api/video-info.js` answers with two.
- **the browser helpers in `js/app.js`.** They trim the input, classify it,
  filter out formats with blank URLs and choose which backup links to show.
  The DOM work is turned into a `Screen` value.

Modules follow the source files:

| module | models |
|---|---|
| `Js`, `Seqs` | the built-ins the code relies on: `\|\|`, `includes`, `trim`, `padStart`, `toString`, `parseInt`, `filter`, `map` |
| `Patterns` | the capture-group regular expressions |
| `Classifier` | `detectPlatform`, `isYouTubeUrl`, `isBilibiliUrl` and the two id extractors |
| `Shapes` | what the classifier makes of the usual URL shapes |
| `Media` | `Format`, `VideoInfo`, the site links, the size label and the handler responses |
| `Chain` | first-success fallback |
| `Upstream` | upstream records and the mappers that several files share |
| `QualitySort` | y2mate's sort |
| `YouTubeApi` | `api/youtube.js` |
| `BilibiliApi` | `api/bilibili.js` |
| `TtlCache`, `VercelVideoInfo` | `vercel-api/api/video-info.js` |
| `IndexApi` | `api/index.js` |
| `ApiVideoInfo` | `api/video-info.js` |
| `App` | `js/app.js` |

Every network call is a parameter of type `Upstream.Fetch<R>`. It is either
`Failed` or `Received(body)`. For the requests that test `response.ok`,
`Failed` covers a transport error, a non-2xx status and unparsable JSON,
all of which throw inside the same `try`. Three requests do not test the
status. For them `Failed` is a transport error, and for the play request
also unparsable JSON:

- The BiliGet play request (`api/bilibili.js:132-133`) parses the body
  whatever the status, so a 4xx with a JSON body is `Received`.
- The short-link `HEAD` request (`api/bilibili.js:287-293`) succeeds on a
  3xx redirect and reads its `Location` header.
- The short-link follow request (`api/bilibili.js:317-322`) reads
  `response.url` whatever the status.

The clock is a parameter too. So every handler is a pure function of its
request, its cache and what the upstreams said.

## Model

Several files carry their own copies of the same helpers. `detectPlatform`
(`vercel-api/api/video-info.js:14-21` and `api/video-info.js:10-17`) and
the two id extractors (`vercel-api/api/video-info.js:24-56`,
`api/index.js:132-169`, `api/video-info.js:20-52` and `js/app.js:95-132`)
are the same code apart from comments and layout. The injahow and BiliGet
strategies (`api/bilibili.js:49-155` and
`vercel-api/api/video-info.js:193-298`) are written differently but
behave the same once each request is a parameter. `api/bilibili.js` puts
the CORS proxy prefix in front of every upstream URL, which is left out
below. The messages of the errors they throw differ, but those errors are
caught by the chain and never returned. BiliGet's final check is written
the other way round (a throw on an empty list against a return inside
`formats.length > 0`), with the same effect. Each copy is modelled once,
and the row below cites one of its occurrences.

| member | source | states |
|---|---|---|
| Classifier.IsYouTubeUrl | js/app.js:85-87 | a URL counts as YouTube exactly when `youtube.com` or `youtu.be` occurs anywhere in it |
| Classifier.IsBilibiliUrl | js/app.js:90-92 | a URL counts as Bilibili exactly when `bilibili.com` or `b23.tv` occurs anywhere in it |
| Classifier.DetectPlatform | vercel-api/api/video-info.js:14-21 | YouTube exactly when a YouTube marker occurs. Bilibili exactly when no YouTube marker but a Bilibili marker occurs, so a URL holding both is YouTube. No platform exactly when neither occurs |
| Classifier.YouTubeVideoId | vercel-api/api/video-info.js:24-41 | the patterns are tried in order: a `v=` capture wins, otherwise a `youtu.be/` capture, otherwise an `embed/` capture. A found id is non-empty, occurs in the URL and holds no `&` or `#`, and one holding `?` can only come from `v=`. Nothing is found exactly when each of the three patterns is absent or captures the empty string at its leftmost match |
| Classifier.BilibiliVideoId | vercel-api/api/video-info.js:44-56 | when the `video/` pattern matches anywhere, its leftmost capture is the id. Otherwise the id is the leftmost `b23.tv/` capture, if any. A found id is non-empty, occurs in the URL and holds no `/` or `?`. Nothing is found exactly when neither pattern matches anywhere |
| Classifier.Classify | vercel-api/api/video-info.js:362-382 | unsupported exactly when no platform is detected. Otherwise the platform is the detected one. A video carries the non-empty id that the platform's extractor finds, and "no id" means that extractor found nothing |
| Classifier.ClassifyAs | api/video-info.js:123-141 | a URL whose platform is detected and whose extractor finds an id is classified as that video |
| Patterns.Match | api/bilibili.js:297-298 | `match ? match[1] : null`: present exactly when the pattern matches somewhere, and then it is the capture at the leftmost match. The capture holds no stop character, and it is non-empty for a `+` pattern |
| Patterns.Capture | vercel-api/api/video-info.js:25-28 | `match && match[1]`: the same as `Match`, except that an empty capture counts as no match. A returned capture is non-empty, holds no stop character and occurs in the string |
| Patterns.FirstMatchFrom | vercel-api/api/video-info.js:25 | `String.prototype.match` uses the leftmost match: one at or after the start, with no match before it |
| Patterns.LeftmostIsFirst | vercel-api/api/video-info.js:25 | a match position with no match before it is the one the search from the start finds |
| Patterns.LeftmostEmptyHidesLater | vercel-api/api/video-info.js:25-28 | when the leftmost `v=` match captures nothing, a later non-empty `v=` is not seen and the extractor moves on |
| Patterns.CaptureIsTail | vercel-api/api/video-info.js:45-48 | when the anchor occurs once and the rest of the URL holds no stop character, the capture is exactly that rest |
| Patterns.NoMatchWithoutAnchor | vercel-api/api/video-info.js:30-33 | a pattern whose first character never occurs does not match, so the extractor falls through |
| Shapes.WatchUrlShape | vercel-api/api/video-info.js:25-28 | `https://www.youtube.com/watch?v=<id>` is classified as that YouTube video for every id free of URL delimiters |
| Shapes.ShortUrlShape | vercel-api/api/video-info.js:30-33 | `https://youtu.be/<id>` is classified as that YouTube video |
| Shapes.EmbedUrlShape | vercel-api/api/video-info.js:35-38 | `https://www.youtube.com/embed/<id>` is classified as that YouTube video |
| Shapes.EmbedHasNoShortLink | vercel-api/api/video-info.js:30-33 | an embed URL does not match the `youtu.be/` pattern, so the third pattern decides |
| Shapes.VideoUrlShape | vercel-api/api/video-info.js:45-48 | `https://www.bilibili.com/video/<id>` is classified as that Bilibili video for every alphanumeric id |
| Shapes.B23UrlShape | vercel-api/api/video-info.js:50-53 | `https://b23.tv/<id>` is classified as a Bilibili video whose id is the short code |
| Shapes.B23HasNoVideoPath | vercel-api/api/video-info.js:45-48 | a b23.tv URL does not match the `video/` pattern, so the short-link pattern decides |
| Shapes.NoYouTubeMarker | vercel-api/api/video-info.js:15 | a Bilibili URL shape contains neither YouTube marker, so platform detection does not take it for YouTube |
| Chain.FirstOk | api/youtube.js:17-46 | the chain succeeds exactly when some strategy succeeds, and then it returns the first success, with every earlier strategy failed |
| Chain.Consulted | api/bilibili.js:17-46 | the strategies actually run form a prefix. All but the last of them failed, and the chain stops early only right after a success |
| Chain.FirstOkIgnoresLater | api/youtube.js:17-46 | the strategies after the first success can be replaced by anything without changing the answer |
| Chain.FirstOkPrefix | api/bilibili.js:17-46 | failures followed by a success give that success, whatever follows |
| Chain.Fallback2 | vercel-api/api/video-info.js:59-190 | two strategies and a static list: the first success wins, and the list is used only when both failed |
| Chain.OrElse | vercel-api/api/video-info.js:159-188 | a success is kept, and a failure is replaced by the static list |
| Media.SiteLink | api/youtube.js:256-287 | a static link starts with the site's prefix and ends with the video id |
| Media.SiteFormat | api/index.js:56-86 | a static format carries the given quality and size, the `mp4` container and the site link for the id |
| Media.LinksToContains | api/bilibili.js:343-373 | every URL in a static list contains the video id |
| Media.RoundedMegabytes | api/youtube.js:192 | `Math.round(bytes / 2^20)` is the whole number of mebibytes nearest to the byte count, with halves rounded up |
| Media.SizeLabel | api/bilibili.js:266 | the label is `未知` exactly when the size is missing or zero. Otherwise the label reads back through `parseInt` as the rounded mebibyte count |
| Upstream.Y2mateFormats | vercel-api/api/video-info.js:97-110 | at most one format per item, each one `mp4` with a URL |
| Upstream.Y2mateFormatsFilterMap | vercel-api/api/video-info.js:100-110 | the `forEach`/`push` loop keeps exactly the `f === 'mp4'` items in order and maps them one to one |
| Upstream.Y2mateDefaults | api/youtube.js:86-96 | a missing URL becomes `''`, and a missing quality or size becomes `未知` |
| Upstream.BuddyFormats | api/youtube.js:140-145 | one format per item, all `mp4`. A present quality, URL and size are passed through. The URL is `''` exactly when the item has none, a missing size is `未知`, and the quality is `未知` exactly when the item has none or says `未知` itself |
| Upstream.IndexLabel | api/bilibili.js:74-85 | injahow labels the first stream 高清, the second 标清 and the rest 未知 |
| Upstream.InjahowFormats | vercel-api/api/video-info.js:219-230 | one format per `durl` entry, labelled by position, with its URL passed through unchanged |
| Upstream.Injahow | api/bilibili.js:49-93 | succeeds exactly when the fetch succeeded and `data.data.durl` exists, even when it is empty. The formats are then the positional mapping of `durl`, the title and author are the body's or the defaults, and there is no thumbnail |
| Upstream.BiliGetFormats | api/bilibili.js:122-147 | the play URL is requested only when the video has pages. A failed request fails the strategy. A usable answer gives exactly one format, and anything else gives none |
| Upstream.BiliGet | api/bilibili.js:96-155 | succeeds exactly when the info is usable, the video has pages and the play answer is usable, so an empty format list throws. On success it has the one 高清 format with the play URL, the info's title and owner or the defaults, and no thumbnail |
| Upstream.BiliGetPlayUnused | api/bilibili.js:124-147 | a video without pages fails BiliGet whatever the play endpoint would have said |
| QualitySort.QualityRank | api/youtube.js:99-103 | a quality's rank is its `parseInt` value, and 0 when that is `NaN` |
| QualitySort.SortByPermutes | api/youtube.js:99-103 | sorting neither adds nor drops formats |
| QualitySort.SortBySorted | api/youtube.js:99-103 | the result is in non-increasing rank order |
| QualitySort.SortByStable | api/youtube.js:99-103 | formats of equal rank keep their original relative order, as `Array.prototype.sort` does |
| QualitySort.SortByQuality | api/youtube.js:99-103 | the sorted list is a permutation, non-increasing by rank, and stable |
| QualitySort.InsertSorted | api/youtube.js:99-103 | inserting into a sorted list keeps it sorted |
| QualitySort.InsertStable | api/youtube.js:99-103 | insertion puts the new element after every element of its own rank |
| QualitySort.InsertPermutes | api/youtube.js:99-103 | insertion adds exactly the new element |
| QualitySort.SortedUnchanged | api/youtube.js:99-103 | a stable sort leaves a list that is already non-increasing by rank as it is |
| QualitySort.SortByQualityIdempotent | api/youtube.js:99-103 | sorting by quality twice is sorting once |
| YouTubeApi.Y2mate | api/youtube.js:49-112 | succeeds exactly when the fetch succeeded and `links.mp4` exists. The formats are the mapped mp4 items, sorted by quality, stable, as a permutation. The uploader is always YouTube, and the title and thumbnail fall back to their defaults |
| YouTubeApi.Buddy | api/youtube.js:115-154 | succeeds exactly when `data.data.mp4` exists. The formats are the mapped `mp4` items, the title is `data.data.title` or the default, and the thumbnail is `data.data.thumbnail` or `https://img.youtube.com/vi/<id>/maxresdefault.jpg` |
| YouTubeApi.Ss | api/youtube.js:157-203 | succeeds exactly when `url` exists and no mp4 item lacks `type` (the `&&` reads `type` only when `ext` is mp4). Formats come from the video items whose `ext` is mp4. The title, author and thumbnail come from `meta`, or else the defaults, the thumbnail default being the `img.youtube.com` maxresdefault image |
| YouTubeApi.SsKeepsVideoItems | api/youtube.js:187-194 | every ssyoutube format comes from a video/mp4 item, and every such item gives a format |
| YouTubeApi.SaveFrom | api/youtube.js:206-253 | succeeds exactly when `links` exists. The formats are the mp4 links, in order, mapped one to one. The title, uploader and thumbnail are the body's `title`, `uploader` and `thumb`, or the defaults |
| YouTubeApi.SaveFromKeepsOrder | api/youtube.js:237-244 | the filter drops nothing exactly when every link is mp4, and it distributes over concatenation |
| YouTubeApi.GetVideoInfo | api/youtube.js:17-46 | the strategies are tried in order y2mate, 9xbuddy, ssyoutube, savefrom: the answer is the first one's that succeeds, and savefrom's own answer once the first three failed. It fails exactly when all four fail, and it is always about the requested id |
| YouTubeApi.Y2mateWins | api/youtube.js:18-20 | once y2mate succeeds, the other three upstreams cannot change the answer |
| YouTubeApi.FallbackDownload | api/youtube.js:256-287 | the static list has three links to the id, labelled 720p, 1080p and 最高质量, all size 未知, with the default title and thumbnail, and no API source |
| BilibiliApi.WeiboLabel | api/bilibili.js:186-191 | weibomiaopai labels positions 0, 1 and 2 as 1080p, 720p and 480p, and the rest 未知 |
| BilibiliApi.WeiboFormats | api/bilibili.js:186-198 | one format per URL, labelled by position, with the URL kept |
| BilibiliApi.WeiboRank | api/bilibili.js:186-191 | an observation about the positional labels: they parse to 1080, 720 and 480, and every later position to 0 (`parseInt('未知')` is `NaN`) |
| BilibiliApi.WeiboAlreadySorted | api/bilibili.js:186-198 | an observation only, since weibomiaopai's formats are never sorted: they are already in non-increasing quality order, so they come out in the order y2mate's sort would give them |
| BilibiliApi.Weibo | api/bilibili.js:158-206 | succeeds exactly when `urls` exists and is non-empty. The formats are then the positional mapping of the URLs, one per URL with its URL kept, and the title and author are the body's or the defaults, with no thumbnail |
| BilibiliApi.QualityLabel | api/bilibili.js:256-261 | codes 112, 80, 64, 32 and 16 map to 1080p+, 1080p, 720p, 480p and 360p, both ways. Any other code, or none, gives 未知 |
| BilibiliApi.QualityLabelInjective | api/bilibili.js:256-261 | two codes with the same known label are the same code |
| BilibiliApi.Official | api/bilibili.js:209-277 | succeeds exactly when the view answer has code 0 with data and the play answer has code 0 with `durl`. Then the formats map `durl` with the stream's quality label, and the title and owner come from the view data or the defaults |
| BilibiliApi.OfficialFormats | api/bilibili.js:255-269 | every official format carries the one quality label of the response. Each keeps its entry's URL, and its size is `未知` exactly when the entry's size is missing or zero |
| BilibiliApi.GetVideoInfo | api/bilibili.js:17-46 | the strategies are tried in order injahow, BiliGet, weibomiaopai, the official API: the answer is the first one's that succeeds, and the official API's own answer once the first three failed. It fails exactly when all four fail, and it is always about the requested id |
| BilibiliApi.InjahowWins | api/bilibili.js:18-20 | once injahow succeeds, the other upstreams cannot change the answer |
| BilibiliApi.ResolveShortLink | api/bilibili.js:280-340 | a truthy `Location` header decides the answer without the second request. Without one, a followed GET whose final URL is non-empty and contains `bilibili.com/video/` gives that URL and its `video/` capture. It fails exactly when neither holds. A resolved id, when not null, is non-empty and occurs in the final URL |
| BilibiliApi.ResolvedTo | api/bilibili.js:297-304 | the answer keeps the short URL, the final URL, and the `video/` capture of the final URL |
| BilibiliApi.ResolvedIdAgrees | api/bilibili.js:297-298 | a resolved id is the id the classifier extracts from the final URL |
| BilibiliApi.RedirectToVideo | api/bilibili.js:293-305 | a redirect to `https://www.bilibili.com/video/<id>` resolves to exactly that id |
| BilibiliApi.FallbackDownload | api/bilibili.js:343-373 | the static list has three links to the id, labelled 高清, 标清 and 原始质量, all size 未知, with no thumbnail |
| BilibiliApi.FormatDuration | api/bilibili.js:376-383 | the result is `未知` exactly when the duration is missing or zero. Any other duration gives the floored minutes and JavaScript's remainder, each padded to two characters and joined by `:`, so a negative one keeps its signs (`-1` gives `-1:-1`) |
| BilibiliApi.Clock | api/bilibili.js:378-382 | a clock never reads `未知`. For a non-negative duration its seconds field is the Euclidean remainder; for a negative one it is minus the remainder of the absolute value, as JavaScript's `%` gives |
| BilibiliApi.FormatDurationRoundTrip | api/bilibili.js:377-382 | for a positive number of seconds, reading the clock back as minutes × 60 + seconds gives the original duration |
| BilibiliApi.PaddedDecimal | api/bilibili.js:382 | `toString().padStart(2, '0')` of a non-negative number is all digits and reads back as that number |
| BilibiliApi.ShortDecimal | api/bilibili.js:380-382 | the seconds part, always below 60, is exactly two characters |
| TtlCache.Key | vercel-api/api/video-info.js:352 | the key is `video:` followed by the URL, so the URL can be read back from it |
| TtlCache.KeyInjective | vercel-api/api/video-info.js:352 | two different URLs never share a cache entry |
| TtlCache.Get | vercel-api/api/video-info.js:353-359 | a hit happens exactly when the key is present and younger than an hour, and it serves the stored data. A miss removes that key and leaves every other entry as it was |
| TtlCache.Put | vercel-api/api/video-info.js:389-392 | the key is stored with the data and the time, and every other entry is unchanged |
| TtlCache.PutThenGet | vercel-api/api/video-info.js:353-392 | what is stored is served back, exactly while it is younger than `CACHE_TTL` |
| TtlCache.ExpiredNeverServed | vercel-api/api/video-info.js:355-358 | an entry an hour old or older is never served and is deleted on lookup |
| TtlCache.GetIsolated | vercel-api/api/video-info.js:353-359 | a lookup of one key does not change what a lookup of another key returns |
| VercelVideoInfo.Y2mate | vercel-api/api/video-info.js:60-118 | succeeds exactly when `links.mp4` exists. The formats are the mp4 items unsorted. The uploader is `data.a` or YouTube |
| VercelVideoInfo.Buddy | vercel-api/api/video-info.js:123-158 | succeeds exactly when `data.data.mp4` exists. The formats are the mapped `mp4` items, the title is `data.data.title` or the default, the uploader is YouTube, and unlike `api/youtube.js` there is no thumbnail |
| VercelVideoInfo.YouTubeStatic | vercel-api/api/video-info.js:163-187 | three links to the id labelled 高清, 标清 and 原始质量, all size 未知 |
| VercelVideoInfo.YouTubeInfo | vercel-api/api/video-info.js:59-190 | y2mate if it succeeds, else 9xbuddy if it succeeds, else the static list. The function always answers, and always about the requested id |
| VercelVideoInfo.BilibiliStatic | vercel-api/api/video-info.js:303-327 | three links to the id labelled 高清, 标清 and 原始质量, all size 未知 |
| VercelVideoInfo.BilibiliInfo | vercel-api/api/video-info.js:193-330 | injahow if it succeeds, else BiliGet if it succeeds, else the static list. The function always answers, and always about the requested id |
| VercelVideoInfo.Lookup | vercel-api/api/video-info.js:362-386 | the answer is 400 exactly when the URL is unsupported or has no id, with the matching message. Otherwise it is 200 with the YouTube or Bilibili chain's answer for the extracted id, given that platform's upstreams |
| VercelVideoInfo.Handle | vercel-api/api/video-info.js:333-398 | a missing URL gives 400 and leaves the cache alone. A fresh cache hit is served unchanged. On a miss the answer is what `Lookup` says, a 400 stores nothing, and a 200 is tagged `Vercel API` and stored under the URL's key with the storing time |
| VercelVideoInfo.HandleKeepsInvariant | vercel-api/api/video-info.js:351-394 | every cache entry is a 200 answer tagged `Vercel API` about the video its URL names, and each request keeps that true |
| VercelVideoInfo.MissKeepsInvariant | vercel-api/api/video-info.js:355-358 | deleting an expired entry keeps that invariant |
| VercelVideoInfo.PutKeepsInvariant | vercel-api/api/video-info.js:386-392 | storing a correct answer keeps that invariant |
| VercelVideoInfo.CacheTransparent | vercel-api/api/video-info.js:347-394 | with a well-formed cache, the status and the id do not depend on whether the answer came from the cache |
| VercelVideoInfo.WarmCacheServes | vercel-api/api/video-info.js:352-356 | a second request for the same URL within the hour gets the first answer, whatever the upstreams say by then, and leaves the cache as it is |
| VercelVideoInfo.StaleEntryIgnored | vercel-api/api/video-info.js:355-358 | an expired entry affects nothing: the request goes as if the key were absent |
| IndexApi.DirectYouTube | api/index.js:56-86 | three links to the id: 高清 (720p) on y2mate, 超清 (1080p) on 9xbuddy and 原始质量 on ssyoutube, all size 自动检测, with the id-based title |
| IndexApi.DirectBilibili | api/index.js:89-119 | three links to the id: 高清 on xbeibeix, 原始质量 on bili.iiilab and 标清 on injahow, all size 自动检测 |
| IndexApi.Handle | api/index.js:10-53 | 400 exactly when the URL is missing, unsupported or has no id, with a message specific to each case. Otherwise 200 with the platform's three static links to the extracted id, tagged `Vercel API` |
| IndexApi.ErrorsDistinct | api/index.js:30-47 | a URL whose id cannot be read gets the platform's own hint, never the unsupported-platform or missing-URL message |
| ApiVideoInfo.YouTubeInfo | api/video-info.js:55-76 | two links to the id, 720p on y2mate and 1080p on 9xbuddy |
| ApiVideoInfo.BilibiliInfo | api/video-info.js:79-100 | two links to the id, 高清 on xbeibeix and 原始质量 on bili.iiilab |
| ApiVideoInfo.Handle | api/video-info.js:103-153 | 400 exactly when the URL is missing, unsupported or has no id, with the matching message. Otherwise 200 with the platform's two static links to the extracted id, tagged `Vercel API` |
| ApiVideoInfo.SameVideoSameAnswer | api/video-info.js:103-153 | two URLs that name the same video get the same answer |
| ApiVideoInfo.AgreesWithIndex | api/video-info.js:55-100 | this handler refuses exactly the URLs that `api/index.js` refuses. On success the id, title, uploader and source are the same, and its links are the first two of index.js's |
| ApiVideoInfo.AgreesWithVercel | api/video-info.js:117-141 | this handler refuses exactly the URLs that the Vercel handler refuses, for every cache satisfying the Vercel handler's invariant, that is every cache the handler can build (`HandleKeepsInvariant`) |
| App.UsableIffNotBlank | js/app.js:151 | a format is shown exactly when its URL exists and is not all whitespace |
| App.ValidFormats | js/app.js:151 | only usable formats remain, and never more than there were |
| App.ValidFormatsExact | js/app.js:151 | the filter keeps exactly the usable formats, in order. It drops nothing exactly when all are usable, and it distributes over concatenation |
| App.Alternatives | js/app.js:204-259 | three backup links to the id, with distinct titles |
| App.DirectOptions | js/app.js:277-335 | four direct links for YouTube and three for Bilibili, all to the id, with distinct titles |
| App.DirectExtendsAlternatives | js/app.js:288-311 | the YouTube list shown after a failure is the backup list plus ssyoutube. The Bilibili lists are the same |
| App.ServerLinksOffered | js/app.js:288-335 | every site that `api/index.js` links for an id is also among the links the page offers after a failure |
| App.Display | js/app.js:135-193 | the links section appears exactly when some format is usable and shows exactly the usable ones. The backups always follow. An empty title or uploader gets its default. The `数据来源: <apiSource>` line appears exactly when `apiSource` is truthy, and shows that source |
| App.FailureBackups | js/app.js:61-65 | after a failure, direct links are offered exactly when the trimmed URL names a video, and they are that video's links |
| App.Generate | js/app.js:22-72 | blank input and malformed input are rejected with their own messages before any request. Otherwise a returned reply is displayed, for YouTube when the trimmed URL has a YouTube marker and for Bilibili otherwise. A failed reply shows its message (or the generic one) with the direct links exactly when the URL names a video |
| App.GenerateIgnoresPadding | js/app.js:23 | surrounding whitespace does not change the outcome |
| App.BlankInputNeverRequests | js/app.js:23-28 | all-whitespace input is rejected whatever the server would have said |
| App.ShownForUrlPlatform | js/app.js:47-50 | a successful reply is displayed with `isYouTubeUrl ? 'youtube' : 'bilibili'`, so any non-YouTube URL is shown as Bilibili, and a URL naming a video is shown with its own platform |
| Js.TrimEmptyIffBlank | js/app.js:23-25 | `url.trim()` is empty exactly when the input is all whitespace |
| Js.TrimIdempotent | js/app.js:23 | trimming twice is trimming once |
| Js.ParseIntDecimal | api/youtube.js:100-101 | `parseInt` reads back a number's decimal form, whatever non-digit suffix follows (`720p`, `MB`) |
| Js.ParseIntNaN | api/youtube.js:100-101 | `parseInt` of a string that starts with neither whitespace, a sign nor a digit is `NaN` |
| Js.DecimalRoundTrip | api/bilibili.js:382 | `toString` of a non-negative number is a digit string whose value is that number |
| Js.PadStart | api/bilibili.js:382 | `padStart` keeps the string as a suffix and fills only the front, up to the width |
| Js.IndexOf | vercel-api/api/video-info.js:15 | the first occurrence at or after a position, with none before it |
| Js.Includes | vercel-api/api/video-info.js:15-17 | `includes` is true exactly when the substring occurs somewhere |
| Js.TrimStart | js/app.js:23 | what is removed is all whitespace, and what is left starts with a non-space |
| Js.TrimEnd | js/app.js:23 | what is removed is all whitespace, and what is left ends with a non-space |
| Seqs.FilterMembers | api/youtube.js:237-238 | `filter` keeps exactly the elements that pass |
| Seqs.FilterAppend | api/youtube.js:237-238 | `filter` distributes over concatenation, so the order is kept |
| Seqs.FilterKeepsAll | api/youtube.js:237-238 | `filter` returns its input exactly when every element passes |
| Seqs.Map | api/youtube.js:239-244 | `map` gives one result per element, in place |

## Left out

- Network I/O, `fetch`, JSON parsing and response status. Each upstream answer is a parameter: either `Failed` or the parsed body with only the fields the code reads.
- `getRandomCorsProxy` and the weibomiaopai server number. Both are random choices of URL prefix, and the model ignores which prefix was used.
- `Date.now()`. It is two parameters: the time of the lookup and the time written by `cache.set`.
- Concurrent requests to the Vercel handler. Each request is modelled as running to completion before the next starts. In the code the upstream chain is awaited between `cache.get` and `cache.set` (`vercel-api/api/video-info.js:354-389`), so two requests for one URL can both miss and both call the upstreams, and the last write wins. `HandleKeepsInvariant` still holds then, since every write stores a correct answer. `WarmCacheServes` is about sequential requests only.
- CORS headers, the `OPTIONS` preflight and the `res` object. A handler's result is a `Response` value; `Status()` gives 400 or 200.
- The `catch` blocks that answer 500 in the three handlers. With every upstream modelled as a value, no modelled path reaches them.
- `isValidUrl` in `js/app.js`. Whether `new URL` accepts the string is the `wellFormed` parameter, because URL parsing is not modelled.
- The DOM in `js/app.js`: the loading state, the button text, the error box and the element building. `displayDownloadLinks` and `handleGenerateClick` produce a `Screen` value instead.
- `getVideoInfo` in `js/app.js`. It is imported from `api/index.js`, but that file exports only its handler. The result of the call is the `reply` parameter.
- Type errors in upstream bodies, apart from one. A field of the wrong JSON type is not modelled; only its presence or absence is. The exception is an ssyoutube item without `type`, where the `.includes` call throws; this is `TypeMissing`.
- Floating point. Sizes and durations are whole numbers. `Math.round` on a non-negative byte count is integer round-half-up, and `Math.floor(seconds / 60)` and `%` are modelled for integers. `parseInt` gives a double in JavaScript; `QualityRank` is an unbounded integer, so labels with more digits than a double holds exactly are ranked by their exact value.
- BilibiliApi.JsRemainder: only bounds JavaScript's `%`: the sign of the result follows the dividend. It is a helper of `FormatDuration`, so its exact value is not restated.
- The Y2mate mapper's dependence on `Object.keys` order. The items of `links.mp4` are a sequence in key order.
- The repository's other files (the HTML and CSS, deployment configuration, and the non-core scripts) are not part of this model.

## Notes on the code

- A strategy does not need any formats to succeed. y2mate, 9xbuddy, injahow, ssyoutube, savefrom and the official API answer successfully with an empty list. Only BiliGet (`api/bilibili.js:145-147`) and weibomiaopai (`api/bilibili.js:177`) throw on an empty result. The model follows the code.
- `formatDuration` (`api/bilibili.js:376-383`) is not called anywhere in the file. It is modelled for its own behaviour.
- `formatDuration` of a negative duration floors the minutes but keeps the sign of `%`, so `-1` gives `-1:-1`. `BilibiliApi.Clock` states both signs.
- The 9xbuddy mapper in `vercel-api/api/video-info.js` sets no thumbnail. The one in `api/youtube.js` falls back to `https://img.youtube.com/vi/<id>/maxresdefault.jpg`.
- The static lists differ between files:
  - `vercel-api/api/video-info.js` uses 高清/标清/原始质量 with size 未知.
  - `api/index.js` and `api/video-info.js` use site-specific labels with size 自动检测.
- A b23.tv short code is taken as the Bilibili video id without resolving it. `resolveBilibiliShortLink` is exported but no handler calls it.

=== FILE: apivideoinfo.dfy ===
/** `api/video-info.js`: a handler with fixed two-entry lists and no cache,
    so that its answer depends on the URL alone. */
module ApiVideoInfo {
  import opened Js
  import opened Media
  import opened Classifier
  import IndexApi
  import VercelVideoInfo
  import TtlCache

  /** `getYouTubeVideoInfo` of this handler. */
  function YouTubeInfo(videoId: string): (r: VideoInfo)
    ensures r.id == videoId && r.title == YouTubeIdTitle(videoId) && r.uploader == YouTubeUploader
    ensures r.thumbnail.None? && r.apiSource.None?
    ensures |r.formats| == 2 && LinksTo(r.formats, videoId)
    ensures r.formats[0].quality == "高清 (720p)" && r.formats[1].quality == "超清 (1080p)"
    ensures forall i :: 0 <= i < 2 ==> r.formats[i].size == AutoDetect
    ensures r.formats[0].url == Some(SiteLink(Y2mateSite, videoId))
    ensures r.formats[1].url == Some(SiteLink(BuddySite, videoId))
  {
    VideoInfo(videoId, YouTubeIdTitle(videoId), YouTubeUploader, None,
      [SiteFormat("高清 (720p)", AutoDetect, Y2mateSite, videoId),
       SiteFormat("超清 (1080p)", AutoDetect, BuddySite, videoId)],
      None)
  }

  /** `getBilibiliVideoInfo` of this handler. */
  function BilibiliInfo(videoId: string): (r: VideoInfo)
    ensures r.id == videoId && r.title == BilibiliIdTitle(videoId) && r.uploader == BilibiliUploader
    ensures r.thumbnail.None? && r.apiSource.None?
    ensures |r.formats| == 2 && LinksTo(r.formats, videoId)
    ensures r.formats[0].quality == "高清" && r.formats[1].quality == "原始质量"
    ensures forall i :: 0 <= i < 2 ==> r.formats[i].size == AutoDetect
    ensures r.formats[0].url == Some(SiteLink(XbeibeixSite, videoId))
    ensures r.formats[1].url == Some(SiteLink(BiliIiilabSite, videoId))
  {
    VideoInfo(videoId, BilibiliIdTitle(videoId), BilibiliUploader, None,
      [SiteFormat("高清", AutoDetect, XbeibeixSite, videoId),
       SiteFormat("原始质量", AutoDetect, BiliIiilabSite, videoId)],
      None)
  }

  /** The handler: 400 for a missing URL, an unsupported platform or a
      missing id, otherwise 200 with `apiSource` set. */
  function Handle(query: Option<string>): (r: Response)
    ensures !Truthy(query) ==> r == BadRequest(MissingUrl)
    ensures r.BadRequest? <==> !Truthy(query) || !Classify(query.value).Video?
    ensures Truthy(query) && Classify(query.value) == Unsupported ==> r == BadRequest(UnsupportedPlatform)
    ensures Truthy(query) && Classify(query.value) == NoVideoId(YouTube) ==> r == BadRequest(NoYouTubeId)
    ensures Truthy(query) && Classify(query.value) == NoVideoId(Bilibili) ==> r == BadRequest(NoBilibiliId)
    ensures r.Success? ==> r.body.id == Classify(query.value).id && r.body.apiSource == Some(VercelSource)
    ensures r.Success? ==> |r.body.formats| == 2 && LinksTo(r.body.formats, r.body.id)
    ensures Truthy(query) && Classify(query.value).Video? ==>
      r == Success((if Classify(query.value).platform == YouTube then YouTubeInfo(Classify(query.value).id)
                    else BilibiliInfo(Classify(query.value).id)).(apiSource := Some(VercelSource)))
  {
    if !Truthy(query) then BadRequest(MissingUrl)
    else
      var c := Classify(query.value);
      match c
      case Unsupported => BadRequest(UnsupportedPlatform)
      case NoVideoId(YouTube) => BadRequest(NoYouTubeId)
      case NoVideoId(Bilibili) => BadRequest(NoBilibiliId)
      case Video(YouTube, id) => Success(YouTubeInfo(id).(apiSource := Some(VercelSource)))
      case Video(Bilibili, id) => Success(BilibiliInfo(id).(apiSource := Some(VercelSource)))
  }

  /** Without a cache or upstreams, two URLs that classify the same get the
      same answer. */
  lemma {:induction false} SameVideoSameAnswer(url1: string, url2: string)
    requires url1 != "" && url2 != "" && Classify(url1) == Classify(url2)
    ensures Handle(Some(url1)) == Handle(Some(url2))
  {
    var c := Classify(url1);
    assert Handle(Some(url1)) == Handle(Some(url2)) by {
      match c
      case Unsupported =>
      case NoVideoId(_) =>
      case Video(p, id) =>
    }
  }

  /** This handler and `api/index.js` fail on the same requests, and on
      success its two links are the first two of the other's three. */
  lemma {:induction false} AgreesWithIndex(query: Option<string>)
    ensures Handle(query).BadRequest? <==> IndexApi.Handle(query).BadRequest?
    ensures Handle(query).Success? ==>
      var mine := Handle(query).body;
      var theirs := IndexApi.Handle(query).body;
      mine.id == theirs.id && mine.title == theirs.title && mine.uploader == theirs.uploader
      && mine.apiSource == theirs.apiSource && mine.formats == theirs.formats[..2]
  {
    if Truthy(query) && Classify(query.value).Video? {
      var id := Classify(query.value).id;
      if Classify(query.value).platform == YouTube {
        assert Handle(query).body.formats == YouTubeInfo(id).formats;
        assert IndexApi.Handle(query).body == IndexApi.DirectYouTube(id);
      } else {
        assert Handle(query).body.formats == BilibiliInfo(id).formats;
        assert IndexApi.Handle(query).body == IndexApi.DirectBilibili(id);
      }
    }
  }

  /** With a cache holding only what it stored itself, the Vercel handler
      fails on exactly the requests this one fails on: a cached answer is
      only ever found under a URL that names a video. */
  lemma {:induction false} AgreesWithVercel(store: TtlCache.Store<VideoInfo>, query: Option<string>, now: int, storedAt: int, u: VercelVideoInfo.Upstreams)
    requires VercelVideoInfo.CacheInvariant(store)
    ensures VercelVideoInfo.Handle(store, query, now, storedAt, u).0.BadRequest? <==> Handle(query).BadRequest?
  {
    if Truthy(query) {
      var key := TtlCache.Key(query.value);
      if TtlCache.Get(store, key, now).Hit? {
        assert key[6..] == query.value;
        assert VercelVideoInfo.Answers(key[6..], store[key].data);
      }
    }
  }
}

=== FILE: app.dfy ===
/** The pure part of the browser script `js/app.js`: input checks, the
    choice of formats worth showing, the backup download sites, and what the
    page ends up showing for a click on the generate button. */
module App {
  import opened Js
  import opened Seqs
  import opened Media
  import opened Classifier
  import IndexApi

  const EmptyInput: string := "请输入视频链接"
  const InvalidInput: string := "请输入有效的视频链接"
  const GenericFailure: string := "处理视频链接时出错，请稍后重试"
  const UnknownTitle: string := "未知标题"

  // ---------------------------------------------------------------------------
  // Formats worth a link

  /** `format.url && format.url.trim() !== ''`. */
  predicate Usable(f: Format) {
    f.url.Some? && Trim(f.url.value) != ""
  }

  /** A format is usable exactly when its URL is present and not all white
      space. */
  lemma UsableIffNotBlank(f: Format)
    ensures Usable(f) <==> f.url.Some? && !AllSpace(f.url.value)
  {
    if f.url.Some? {
      TrimEmptyIffBlank(f.url.value);
    }
  }

  /** `validFormats`. */
  function ValidFormats(formats: seq<Format>): (r: seq<Format>)
    ensures |r| <= |formats|
    ensures forall i :: 0 <= i < |r| ==> Usable(r[i])
  {
    Filter(formats, Usable)
  }

  /** The shown formats are exactly the usable ones, each once per
      occurrence, in their original order; nothing is dropped from a list of
      usable formats. */
  lemma ValidFormatsExact(formats: seq<Format>)
    ensures forall i :: 0 <= i < |ValidFormats(formats)| ==> ValidFormats(formats)[i] in formats
    ensures forall i :: 0 <= i < |formats| && Usable(formats[i]) ==> formats[i] in ValidFormats(formats)
    ensures ValidFormats(formats) == formats <==> forall i :: 0 <= i < |formats| ==> Usable(formats[i])
    ensures forall a, b :: ValidFormats(a + b) == ValidFormats(a) + ValidFormats(b)
  {
    FilterMembers(formats, Usable);
    FilterKeepsAll(formats, Usable);
    forall a, b ensures ValidFormats(a + b) == ValidFormats(a) + ValidFormats(b) {
      FilterAppend(a, b, Usable);
    }
  }

  // ---------------------------------------------------------------------------
  // Backup download sites

  /** One `{ title, description, url }` entry of the backup lists. */
  datatype Alternative = Alternative(title: string, description: string, url: string)

  function Y2mateLink(videoId: string): Alternative {
    Alternative("Y2mate下载", "支持多种格式和质量", SiteLink(Y2mateSite, videoId))
  }

  function BuddyLink(videoId: string): Alternative {
    Alternative("9xBuddy下载", "高速下载服务", SiteLink(BuddySite, videoId))
  }

  function SaveFromLink(videoId: string): Alternative {
    Alternative("SaveFrom.net下载", "无需安装软件", SiteLink(SaveFromSite, videoId))
  }

  function SsYouTubeLink(videoId: string): Alternative {
    Alternative("SSYoutube下载", "支持高清视频", SiteLink(SsYouTubeSite, videoId))
  }

  function XbeibeixLink(videoId: string): Alternative {
    Alternative("XBeiBeiX下载", "支持高清视频下载", SiteLink(XbeibeixSite, videoId))
  }

  function BiliIiilabLink(videoId: string): Alternative {
    Alternative("BiliGet下载", "支持多种格式", SiteLink(BiliIiilabSite, videoId))
  }

  function InjahowLink(videoId: string): Alternative {
    Alternative("Injahow下载", "稳定的B站视频解析", SiteLink(InjahowSite, videoId))
  }

  /** Every entry's link ends with the video id. */
  predicate AllLinkTo(alts: seq<Alternative>, videoId: string) {
    forall i :: 0 <= i < |alts| ==> EndsWith(alts[i].url, videoId)
  }

  /** `addAlternativeDownloadOptions`: three sites per platform; any platform
      other than YouTube gets the Bilibili list. */
  function Alternatives(videoId: string, platform: Platform): (r: seq<Alternative>)
    ensures |r| == 3 && AllLinkTo(r, videoId)
    ensures forall i, j :: 0 <= i < j < |r| ==> r[i].title != r[j].title
  {
    if platform == YouTube then [Y2mateLink(videoId), BuddyLink(videoId), SaveFromLink(videoId)]
    else [XbeibeixLink(videoId), BiliIiilabLink(videoId), InjahowLink(videoId)]
  }

  /** `showDirectDownloadOptions`: the same lists, with SSYoutube added for
      YouTube. */
  function DirectOptions(videoId: string, platform: Platform): (r: seq<Alternative>)
    ensures |r| == (if platform == YouTube then 4 else 3) && AllLinkTo(r, videoId)
    ensures forall i, j :: 0 <= i < j < |r| ==> r[i].title != r[j].title
  {
    if platform == YouTube then
      [Y2mateLink(videoId), BuddyLink(videoId), SaveFromLink(videoId), SsYouTubeLink(videoId)]
    else [XbeibeixLink(videoId), BiliIiilabLink(videoId), InjahowLink(videoId)]
  }

  /** The failure path offers the success path's backup sites, plus one more
      for YouTube only. */
  lemma DirectExtendsAlternatives(videoId: string, platform: Platform)
    ensures platform == YouTube ==> DirectOptions(videoId, platform) == Alternatives(videoId, platform) + [SsYouTubeLink(videoId)]
    ensures platform == Bilibili ==> DirectOptions(videoId, platform) == Alternatives(videoId, platform)
  {
  }

  /** Every link the server's direct-link list offers is also offered by the
      page's failure path. */
  lemma ServerLinksOffered(videoId: string, platform: Platform)
    ensures var info := if platform == YouTube then IndexApi.DirectYouTube(videoId) else IndexApi.DirectBilibili(videoId);
      forall i :: 0 <= i < |info.formats| ==>
        exists j :: 0 <= j < |DirectOptions(videoId, platform)| && info.formats[i].url == Some(DirectOptions(videoId, platform)[j].url)
  {
    var info := if platform == YouTube then IndexApi.DirectYouTube(videoId) else IndexApi.DirectBilibili(videoId);
    var opts := DirectOptions(videoId, platform);
    if platform == YouTube {
      assert info.formats[0].url == Some(opts[0].url);
      assert info.formats[1].url == Some(opts[1].url);
      assert info.formats[2].url == Some(opts[3].url);
    } else {
      assert info.formats[0].url == Some(opts[0].url);
      assert info.formats[1].url == Some(opts[1].url);
      assert info.formats[2].url == Some(opts[2].url);
    }
  }

  // ---------------------------------------------------------------------------
  // The generate button

  /** What the API call gave back: the video information, or an error whose
      `message` may be empty. */
  datatype Reply = Returned(info: VideoInfo) | Threw(message: string)

  /** The part of the page that lists direct links. */
  datatype LinkSection = Links(formats: seq<Format>) | NoDirectLinks

  datatype Screen =
    /** `showError` before any request is made. */
    | Rejected(message: string)
    /** `displayDownloadLinks`. */
    | Shown(title: string, platform: Platform, uploader: string, links: LinkSection,
            backups: seq<Alternative>, sourceNote: Option<string>)
    /** `showError` with a retry button, then the direct options when an id
        could be found. */
    | Failed(message: string, backups: seq<Alternative>)

  /** The text in front of the API source line. */
  const SourceLabel: string := "数据来源: "

  /** `displayDownloadLinks(videoInfo, platform)`. The source line is
      rendered only for a truthy `apiSource`. */
  function Display(info: VideoInfo, platform: Platform): (r: Screen)
    ensures r.Shown? && r.platform == platform
    ensures r.links.Links? <==> exists i :: 0 <= i < |info.formats| && Usable(info.formats[i])
    ensures r.links.Links? ==> r.links.formats == ValidFormats(info.formats)
    ensures r.backups == Alternatives(info.id, platform)
    ensures r.title == (if info.title == "" then UnknownTitle else info.title)
    ensures r.uploader == (if info.uploader == "" then Unknown else info.uploader)
    ensures r.sourceNote.Some? <==> Truthy(info.apiSource)
    ensures r.sourceNote.Some? ==> r.sourceNote.value == SourceLabel + info.apiSource.value
  {
    var valid := ValidFormats(info.formats);
    FilterMembers(info.formats, Usable);
    var links := if |info.formats| > 0 && |valid| > 0 then Links(valid) else NoDirectLinks;
    assert links.Links? ==> Usable(valid[0]) && valid[0] in info.formats;
    Shown(Or(Some(info.title), UnknownTitle), platform, Or(Some(info.uploader), Unknown),
      links, Alternatives(info.id, platform),
      if Truthy(info.apiSource) then Some(SourceLabel + info.apiSource.value) else None)
  }

  /** The `catch` branch's direct options: offered for a URL of either
      platform whose id can be extracted, for that platform and id. */
  function FailureBackups(url: string): (r: seq<Alternative>)
    ensures r != [] <==> Classify(url).Video?
    ensures r != [] ==> r == DirectOptions(Classify(url).id, Classify(url).platform)
  {
    if IsYouTubeUrl(url) || IsBilibiliUrl(url) then
      var videoId := if IsYouTubeUrl(url) then YouTubeVideoId(url) else BilibiliVideoId(url);
      if videoId.Some? then DirectOptions(videoId.value, if IsYouTubeUrl(url) then YouTube else Bilibili)
      else []
    else []
  }

  /** `handleGenerateClick`. `isValidUrl` (the `URL` constructor) is the
      parameter `wellFormed`; `reply` is what the API call gave back. */
  function Generate(input: string, wellFormed: bool, reply: Reply): (r: Screen)
    ensures Trim(input) == "" ==> r == Rejected(EmptyInput)
    ensures Trim(input) != "" && !wellFormed ==> r == Rejected(InvalidInput)
    ensures r.Rejected? <==> Trim(input) == "" || !wellFormed
    ensures r.Shown? <==> !r.Rejected? && reply.Returned?
    ensures r.Shown? ==> r == Display(reply.info, if IsYouTubeUrl(Trim(input)) then YouTube else Bilibili)
    ensures r.Failed? ==> r.message == (if reply.message == "" then GenericFailure else reply.message)
    ensures r.Failed? ==> (r.backups != [] <==> Classify(Trim(input)).Video?)
    ensures r.Failed? && r.backups != [] ==>
      r.backups == DirectOptions(Classify(Trim(input)).id, Classify(Trim(input)).platform)
  {
    Respond(Trim(input), wellFormed, reply)
  }

  /** `handleGenerateClick` from the trimmed URL on. */
  function Respond(url: string, wellFormed: bool, reply: Reply): Screen {
    if url == "" then Rejected(EmptyInput)
    else if !wellFormed then Rejected(InvalidInput)
    else match reply
      case Returned(info) => Display(info, if IsYouTubeUrl(url) then YouTube else Bilibili)
      case Threw(message) => Failed(Or(Some(message), GenericFailure), FailureBackups(url))
  }

  /** White space around the input never changes the outcome. */
  lemma GenerateIgnoresPadding(input: string, wellFormed: bool, reply: Reply)
    ensures Generate(Trim(input), wellFormed, reply) == Generate(input, wellFormed, reply)
  {
    TrimIdempotent(input);
  }

  /** A blank input is refused before the API is asked, so the reply does
      not matter. */
  lemma BlankInputNeverRequests(input: string, wellFormed: bool, r1: Reply, r2: Reply)
    requires AllSpace(input)
    ensures Generate(input, wellFormed, r1) == Generate(input, wellFormed, r2) == Rejected(EmptyInput)
  {
    TrimEmptyIffBlank(input);
  }

  /** A successful reply is shown as YouTube when the URL carries a YouTube
      marker and as Bilibili otherwise, even for a URL of no known platform;
      for a URL naming a video that is the video's platform. Its backup
      sites are chosen by the id in the reply, not the one in the URL. */
  lemma ShownForUrlPlatform(input: string, info: VideoInfo)
    requires Trim(input) != ""
    ensures Generate(input, true, Returned(info)) == Display(info, if IsYouTubeUrl(Trim(input)) then YouTube else Bilibili)
    ensures !IsYouTubeUrl(Trim(input)) ==> Generate(input, true, Returned(info)).platform == Bilibili
    ensures Classify(Trim(input)).Video? ==>
      Generate(input, true, Returned(info)) == Display(info, Classify(Trim(input)).platform)
  {
  }
}

=== FILE: bilibili.dfy ===
/** `api/bilibili.js`: four Bilibili strategies tried in order, short-link
    resolution, a static list of download-site links, and the duration
    formatter. */
module BilibiliApi {
  import opened Js
  import opened Seqs
  import opened Media
  import opened Chain
  import opened Upstream
  import opened Patterns
  import opened Classifier
  import opened QualitySort
  import Shapes

  // ---------------------------------------------------------------------------
  // weibomiaopai

  /** `data.urls` is `None` when missing or not an array; its entries are
      passed through as they are. */
  datatype WeiboData = WeiboData(urls: Option<seq<Option<string>>>, title: Option<string>, author: Option<string>)

  /** The quality weibomiaopai's formats get from their position. */
  function WeiboLabel(index: nat): (r: string)
    ensures index == 0 <==> r == "1080p"
    ensures index == 1 <==> r == "720p"
    ensures index == 2 <==> r == "480p"
    ensures index >= 3 <==> r == Unknown
  {
    if index == 0 then "1080p" else if index == 1 then "720p" else if index == 2 then "480p" else Unknown
  }

  function WeiboFormats(urls: seq<Option<string>>): (r: seq<Format>)
    ensures |r| == |urls|
    ensures forall i :: 0 <= i < |r| ==> r[i] == Format(WeiboLabel(i), Mp4, Unknown, urls[i])
  {
    seq(|urls|, i requires 0 <= i < |urls| => Format(WeiboLabel(i), Mp4, Unknown, urls[i]))
  }

  /** `getWeibomiaopaiLinks`: it throws unless `data.urls` is a non-empty
      array, so its result is never empty. */
  function Weibo(videoId: string, fetch: Fetch<WeiboData>): (r: Outcome<VideoInfo>)
    ensures r.Ok? <==> fetch.Received? && fetch.body.urls.Some? && |fetch.body.urls.value| > 0
    ensures r.Ok? ==> r.value.id == videoId && r.value.apiSource.None? && r.value.thumbnail.None?
    ensures r.Ok? ==> r.value.title == Or(fetch.body.title, BilibiliTitle(videoId))
    ensures r.Ok? ==> r.value.uploader == Or(fetch.body.author, BilibiliUploader)
    ensures r.Ok? ==> |r.value.formats| == |fetch.body.urls.value| > 0
    ensures r.Ok? ==> forall i :: 0 <= i < |r.value.formats| ==> r.value.formats[i].url == fetch.body.urls.value[i]
    ensures r.Ok? ==> r.value.formats == WeiboFormats(fetch.body.urls.value)
  {
    match fetch
    case Failed => Fail
    case Received(data) =>
      if data.urls.None? || |data.urls.value| == 0 then Fail
      else
        Ok(VideoInfo(videoId, Or(data.title, BilibiliTitle(videoId)), Or(data.author, BilibiliUploader),
                     None, WeiboFormats(data.urls.value), None))
  }

  /** The rank the y2mate sort gives a weibomiaopai label: the resolution
      for the first three, and 0 for `未知`. */
  lemma WeiboRank(index: nat)
    ensures QualityRank(WeiboLabel(index)) ==
      (if index == 0 then 1080 else if index == 1 then 720 else if index == 2 then 480 else 0)
  {
    if index == 0 {
      Label1080();
    } else if index == 1 {
      Label720();
    } else if index == 2 {
      Label480();
    } else {
      assert Unknown[0] == '未';
      ParseIntNaN(Unknown);
    }
  }

  /** weibomiaopai's positional labels already go from the highest resolution
      down: the y2mate sort would leave its formats exactly as they are. */
  lemma WeiboAlreadySorted(urls: seq<Option<string>>)
    ensures NonIncreasing(WeiboFormats(urls), Rank)
    ensures SortByQuality(WeiboFormats(urls)) == WeiboFormats(urls)
  {
    var f := WeiboFormats(urls);
    forall i, j | 0 <= i < j < |f| ensures Rank(f[i]) >= Rank(f[j]) {
      WeiboRank(i);
      WeiboRank(j);
    }
    SortedUnchanged(f, Rank);
  }

  lemma Label1080()
    ensures ParseInt(Decimal(1080) + "p") == Some(1080) && Decimal(1080) + "p" == "1080p"
  {
    ParseIntDecimal(1080, "p");
    Decimal1080();
  }

  lemma Label720()
    ensures ParseInt(Decimal(720) + "p") == Some(720) && Decimal(720) + "p" == "720p"
  {
    ParseIntDecimal(720, "p");
    Decimal720();
  }

  lemma Label480()
    ensures ParseInt(Decimal(480) + "p") == Some(480) && Decimal(480) + "p" == "480p"
  {
    ParseIntDecimal(480, "p");
    Decimal480();
  }

  lemma Decimal1080()
    ensures Decimal(1080) == "1080"
  {
    DecimalStep(1, 0);
    DecimalStep(10, 8);
    DecimalStep(108, 0);
  }

  lemma Decimal720()
    ensures Decimal(720) == "720"
  {
    DecimalStep(7, 2);
    DecimalStep(72, 0);
  }

  lemma Decimal480()
    ensures Decimal(480) == "480"
  {
    DecimalStep(4, 8);
    DecimalStep(48, 0);
  }

  /** Appending a digit to a positive number appends its character. */
  lemma DecimalStep(n: nat, d: nat)
    requires 0 < n && d < 10
    ensures Decimal(n * 10 + d) == Decimal(n) + [DigitChar(d)]
  {
    assert (n * 10 + d) / 10 == n && (n * 10 + d) % 10 == d;
  }

  // ---------------------------------------------------------------------------
  // The official API

  /** `data.data` of the view endpoint; `ownerName` is `owner?.name`. */
  datatype OfficialVideo = OfficialVideo(cid: Option<int>, title: Option<string>, ownerName: Option<string>)

  datatype OfficialView = OfficialView(code: Option<int>, data: Option<OfficialVideo>)

  datatype OfficialPlayBody = OfficialPlayBody(quality: Option<int>, durl: Option<seq<DurlItem>>)

  datatype OfficialPlay = OfficialPlay(code: Option<int>, data: Option<OfficialPlayBody>)

  /** The quality label of a `playurl` quality code. */
  function QualityLabel(quality: Option<int>): (r: string)
    ensures r == "1080p+" <==> quality == Some(112)
    ensures r == "1080p" <==> quality == Some(80)
    ensures r == "720p" <==> quality == Some(64)
    ensures r == "480p" <==> quality == Some(32)
    ensures r == "360p" <==> quality == Some(16)
    ensures r == Unknown <==> quality !in {Some(112), Some(80), Some(64), Some(32), Some(16)}
  {
    match quality
    case Some(112) => "1080p+"
    case Some(80) => "1080p"
    case Some(64) => "720p"
    case Some(32) => "480p"
    case Some(16) => "360p"
    case _ => Unknown
  }

  /** A known label names exactly one quality code. */
  lemma QualityLabelInjective(a: Option<int>, b: Option<int>)
    requires QualityLabel(a) == QualityLabel(b) != Unknown
    ensures a == b
  {
  }

  /** `code === 0 && data`. */
  predicate ViewUsable(view: OfficialView) {
    view.code == Some(0) && view.data.Some?
  }

  /** `code === 0 && data && data.durl`: an empty `durl` array is truthy. */
  predicate PlayUsable(play: OfficialPlay) {
    play.code == Some(0) && play.data.Some? && play.data.value.durl.Some?
  }

  function OfficialFormat(quality: Option<int>, item: DurlItem): Format {
    Format(QualityLabel(quality), Mp4, SizeLabel(item.size), item.url)
  }

  /** `getBilibiliOfficialLinks`: the view request, then the play request,
      each of which must succeed; every `durl` entry becomes a format with
      the one quality label of the response. */
  function Official(videoId: string, view: Fetch<OfficialView>, play: Fetch<OfficialPlay>): (r: Outcome<VideoInfo>)
    ensures r.Ok? <==> view.Received? && ViewUsable(view.body) && play.Received? && PlayUsable(play.body)
    ensures r.Ok? ==> r.value.id == videoId && r.value.apiSource.None? && r.value.thumbnail.None?
    ensures r.Ok? ==> r.value.title == Or(view.body.data.value.title, BilibiliTitle(videoId))
    ensures r.Ok? ==> r.value.uploader == Or(view.body.data.value.ownerName, BilibiliUploader)
    ensures r.Ok? ==> r.value.formats == Map(play.body.data.value.durl.value, d => OfficialFormat(play.body.data.value.quality, d))
  {
    match view
    case Failed => Fail
    case Received(v) =>
      if !ViewUsable(v) then Fail
      else
        match play
        case Failed => Fail
        case Received(p) =>
          if !PlayUsable(p) then Fail
          else
            var body := p.data.value;
            var video := v.data.value;
            Ok(VideoInfo(videoId, Or(video.title, BilibiliTitle(videoId)), Or(video.ownerName, BilibiliUploader),
                         None, Map(body.durl.value, d => OfficialFormat(body.quality, d)), None))
  }

  /** All formats of one official response share one quality label, and each
      size label is the rounded megabyte count of its `durl` entry. */
  lemma OfficialFormats(videoId: string, view: Fetch<OfficialView>, play: Fetch<OfficialPlay>)
    requires Official(videoId, view, play).Ok?
    ensures forall i, j :: 0 <= i < j < |Official(videoId, view, play).value.formats| ==>
      Official(videoId, view, play).value.formats[i].quality == Official(videoId, view, play).value.formats[j].quality
    ensures forall i :: 0 <= i < |Official(videoId, view, play).value.formats| ==>
      var item := play.body.data.value.durl.value[i];
      var f := Official(videoId, view, play).value.formats[i];
      f.url == item.url && (f.size == Unknown <==> item.size.None? || item.size == Some(0))
  {
  }

  // ---------------------------------------------------------------------------
  // The chain

  /** The upstream responses one call of `getBilibiliVideoInfo` would see. */
  datatype Upstreams = Upstreams(
    injahow: Fetch<InjahowData>,
    biliGetInfo: Fetch<BiliGetInfo>,
    biliGetPlay: Fetch<BiliGetPlay>,
    weibo: Fetch<WeiboData>,
    officialView: Fetch<OfficialView>,
    officialPlay: Fetch<OfficialPlay>)

  function Attempts(videoId: string, u: Upstreams): seq<Outcome<VideoInfo>> {
    [Injahow(videoId, u.injahow), BiliGet(videoId, u.biliGetInfo, u.biliGetPlay),
     Weibo(videoId, u.weibo), Official(videoId, u.officialView, u.officialPlay)]
  }

  /** `getBilibiliVideoInfo`: injahow, BiliGet, weibomiaopai, the official
      API; the first that returns wins, and `Fail` stands for the final
      `无法获取B站视频下载链接` error. */
  function GetVideoInfo(videoId: string, u: Upstreams): (r: Outcome<VideoInfo>)
    ensures r.Fail? <==>
      Injahow(videoId, u.injahow).Fail? && BiliGet(videoId, u.biliGetInfo, u.biliGetPlay).Fail?
      && Weibo(videoId, u.weibo).Fail? && Official(videoId, u.officialView, u.officialPlay).Fail?
    ensures Injahow(videoId, u.injahow).Ok? ==> r == Injahow(videoId, u.injahow)
    ensures Injahow(videoId, u.injahow).Fail? && BiliGet(videoId, u.biliGetInfo, u.biliGetPlay).Ok? ==>
      r == BiliGet(videoId, u.biliGetInfo, u.biliGetPlay)
    ensures (Injahow(videoId, u.injahow).Fail? && BiliGet(videoId, u.biliGetInfo, u.biliGetPlay).Fail?
             && Weibo(videoId, u.weibo).Ok?) ==> r == Weibo(videoId, u.weibo)
    ensures (Injahow(videoId, u.injahow).Fail? && BiliGet(videoId, u.biliGetInfo, u.biliGetPlay).Fail?
             && Weibo(videoId, u.weibo).Fail?) ==> r == Official(videoId, u.officialView, u.officialPlay)
    ensures r.Ok? ==> r.value.id == videoId
  {
    var a := Attempts(videoId, u);
    assert a[0] == Injahow(videoId, u.injahow) && a[1] == BiliGet(videoId, u.biliGetInfo, u.biliGetPlay);
    assert a[2] == Weibo(videoId, u.weibo) && a[3] == Official(videoId, u.officialView, u.officialPlay);
    FirstOk(a)
  }

  /** Once injahow answers, no other upstream can change the result. */
  lemma {:induction false} InjahowWins(videoId: string, u: Upstreams, others: Upstreams)
    requires Injahow(videoId, u.injahow).Ok?
    ensures GetVideoInfo(videoId, u) == GetVideoInfo(videoId, others.(injahow := u.injahow))
  {
    var v := others.(injahow := u.injahow);
    var w := Injahow(videoId, u.injahow).value;
    FirstOkPrefix([], w, Attempts(videoId, u)[1..], Attempts(videoId, v)[1..]);
    assert Attempts(videoId, u) == [] + [Ok(w)] + Attempts(videoId, u)[1..];
    assert Attempts(videoId, v) == [] + [Ok(w)] + Attempts(videoId, v)[1..];
  }

  // ---------------------------------------------------------------------------
  // Short links

  /** `{ originalUrl, resolvedUrl, videoId }`; a `null` id is `None`. */
  datatype ShortLink = ShortLink(originalUrl: string, resolvedUrl: string, videoId: Option<string>)

  /** `resolveBilibiliShortLink`. `head` is the `location` header of the
      `HEAD` request (`Failed` when the request throws), `follow` the final
      URL of the redirect-following request. The backup runs only when the
      first request yields no location; `Fail` is the final
      `无法解析B站短链接` error. */
  function ResolveShortLink(shortUrl: string, head: Fetch<Option<string>>, follow: Fetch<string>): (r: Outcome<ShortLink>)
    ensures head.Received? && Truthy(head.body) ==> r == Ok(ShortLink(shortUrl, head.body.value, Match(head.body.value, VideoPath)))
    ensures r.Fail? <==>
      (!(head.Received? && Truthy(head.body))
       && !(follow.Received? && follow.body != "" && Includes(follow.body, "bilibili.com/video/")))
    ensures !(head.Received? && Truthy(head.body)) && follow.Received? && follow.body != ""
            && Includes(follow.body, "bilibili.com/video/") ==>
      r == Ok(ShortLink(shortUrl, follow.body, Match(follow.body, VideoPath)))
    ensures r.Ok? ==> r.value.originalUrl == shortUrl
    ensures r.Ok? && r.value.videoId.Some? ==> |r.value.videoId.value| > 0 && Contains(r.value.resolvedUrl, r.value.videoId.value)
  {
    if head.Received? && Truthy(head.body) then
      ResolvedTo(shortUrl, head.body.value)
    else if follow.Received? && follow.body != "" && Includes(follow.body, "bilibili.com/video/") then
      ResolvedTo(shortUrl, follow.body)
    else Fail
  }

  /** The record for a resolved URL: the id is the first capture of
      `/bilibili\.com\/video\/([^\/\?]+)/`, or `null`. */
  function ResolvedTo(shortUrl: string, resolved: string): (r: Outcome<ShortLink>)
    ensures r == Ok(ShortLink(shortUrl, resolved, Match(resolved, VideoPath)))
    ensures r.value.videoId.Some? ==> |r.value.videoId.value| > 0 && Contains(resolved, r.value.videoId.value)
  {
    assert Capture(resolved, VideoPath) == Match(resolved, VideoPath);
    Ok(ShortLink(shortUrl, resolved, Match(resolved, VideoPath)))
  }

  /** The id a resolution reports is the one the URL extractor finds in the
      resolved URL: resolving and then classifying agree. */
  lemma ResolvedIdAgrees(shortUrl: string, head: Fetch<Option<string>>, follow: Fetch<string>)
    requires ResolveShortLink(shortUrl, head, follow).Ok?
    requires ResolveShortLink(shortUrl, head, follow).value.videoId.Some?
    ensures BilibiliVideoId(ResolveShortLink(shortUrl, head, follow).value.resolvedUrl)
      == ResolveShortLink(shortUrl, head, follow).value.videoId
  {
  }

  /** A redirect to a video page yields that page's id, whatever the backup
      request would have returned. */
  lemma RedirectToVideo(shortUrl: string, id: string, location: string, follow: Fetch<string>)
    requires Shapes.AlnumId(id) && location == "https://www.bilibili.com/video/" + id
    ensures ResolveShortLink(shortUrl, Received(Some(location)), follow) == Ok(ShortLink(shortUrl, location, Some(id)))
  {
    Shapes.VideoCapture(id);
    assert Match(location, VideoPath) == Capture(location, VideoPath);
  }

  // ---------------------------------------------------------------------------
  // Static fallback

  /** `fallbackBilibiliDownload`: three download-site links for the id. */
  function FallbackDownload(videoId: string): (r: VideoInfo)
    ensures r.id == videoId && r.title == BilibiliTitle(videoId) && r.uploader == BilibiliUploader
    ensures r.thumbnail.None? && r.apiSource.None?
    ensures |r.formats| == 3 && LinksTo(r.formats, videoId)
    ensures r.formats[0].quality == "高清" && r.formats[1].quality == "标清" && r.formats[2].quality == "原始质量"
    ensures forall i :: 0 <= i < 3 ==> r.formats[i].size == Unknown
  {
    VideoInfo(videoId, BilibiliTitle(videoId), BilibiliUploader, None,
      [SiteFormat("高清", Unknown, XbeibeixSite, videoId),
       SiteFormat("标清", Unknown, BiliIiilabSite, videoId),
       SiteFormat("原始质量", Unknown, BilibiliIiilabSite, videoId)],
      None)
  }

  // ---------------------------------------------------------------------------
  // Durations

  /** `n.toString()` for any integer. */
  function IntString(n: int): string {
    if n < 0 then "-" + Decimal(-n) else Decimal(n)
  }

  /** JavaScript's `%`: the remainder takes the sign of the dividend. */
  function JsRemainder(a: int, b: nat): (r: int)
    requires b > 0
    ensures a >= 0 ==> 0 <= r < b
    ensures a < 0 ==> -(b as int) < r <= 0
  {
    if a >= 0 then a % b else -((-a) % b)
  }

  function TwoDigits(n: int): string {
    PadStart(IntString(n), 2, '0')
  }

  /** `formatDuration`: `未知` for a missing or zero duration, otherwise
      `MM:SS` with `Math.floor(seconds / 60)` minutes and `seconds % 60`
      seconds, each padded to two characters. */
  function FormatDuration(seconds: Option<int>): (r: string)
    ensures seconds.None? || seconds == Some(0) <==> r == Unknown
    ensures seconds.Some? && seconds.value > 0 ==>
      r == TwoDigits(seconds.value / 60) + ":" + TwoDigits(seconds.value % 60)
    ensures seconds.Some? && seconds.value < 0 ==>
      r == TwoDigits(seconds.value / 60) + ":" + TwoDigits(-((-seconds.value) % 60))
  {
    if seconds.None? || seconds.value == 0 then Unknown
    else Clock(seconds.value)
  }

  /** The `MM:SS` text of a non-zero duration, with JavaScript's remainder. */
  function Clock(s: int): (r: string)
    ensures r != Unknown
    ensures s >= 0 ==> r == TwoDigits(s / 60) + ":" + TwoDigits(s % 60)
    ensures s < 0 ==> r == TwoDigits(s / 60) + ":" + TwoDigits(-((-s) % 60))
  {
    var secs := JsRemainder(s, 60);
    RemainderSixty(s, secs);
    ClockIsNotUnknown(s / 60, secs);
    TwoDigits(s / 60) + ":" + TwoDigits(secs)
  }

  /** JavaScript's `s % 60` against Dafny's Euclidean one. */
  lemma RemainderSixty(s: int, secs: int)
    requires secs == JsRemainder(s, 60)
    ensures s >= 0 ==> secs == s % 60
    ensures s < 0 ==> secs == -((-s) % 60)
  {
  }

  /** A padded field starts with a digit or a minus sign. */
  lemma TwoDigitsHead(n: int)
    ensures |TwoDigits(n)| >= 1
    ensures TwoDigits(n)[0] == '-' || IsDigit(TwoDigits(n)[0])
  {
    var m := IntString(n);
    assert |m| >= 1 && (m[0] == '-' || IsDigit(m[0]));
    if |m| >= 2 {
      assert TwoDigits(n) == m;
    }
  }

  /** A clock never reads `未知`: it starts with a digit or a sign. */
  lemma ClockIsNotUnknown(minutes: int, secs: int)
    ensures TwoDigits(minutes) + ":" + TwoDigits(secs) != Unknown
  {
    var p := TwoDigits(minutes);
    TwoDigitsHead(minutes);
    assert (p + ":" + TwoDigits(secs))[0] == p[0];
  }



  /** Reads `MM:SS` back: the digits before the last `:` are minutes, the
      two after it seconds. */
  function ClockSeconds(clock: string): Option<int> {
    if |clock| < 3 || clock[|clock| - 3] != ':' then None
    else
      var minutes := clock[..|clock| - 3];
      var secs := clock[|clock| - 2..];
      if AllRadixDigits(minutes, 10) && AllRadixDigits(secs, 10) then
        Some(RadixValue(minutes, 10) * 60 + RadixValue(secs, 10))
      else None
  }

  /** A positive duration's clock reads back as the same number of seconds. */
  lemma FormatDurationRoundTrip(seconds: nat)
    requires seconds > 0
    ensures ClockSeconds(FormatDuration(Some(seconds))) == Some(seconds)
  {
    var m := seconds / 60;
    var s := seconds % 60;
    SixtyDivMod(seconds);
    FieldsReadBack(FormatDuration(Some(seconds)), m, s);
  }

  /** Minutes and seconds below sixty, padded and joined, read back. */
  lemma FieldsReadBack(clock: string, m: nat, s: nat)
    requires s < 60 && clock == TwoDigits(m) + ":" + TwoDigits(s)
    ensures ClockSeconds(clock) == Some(m * 60 + s)
  {
    var mm, ss := TwoDigits(m), TwoDigits(s);
    PaddedDecimal(m);
    PaddedDecimal(s);
    ShortDecimal(s);
    ClockFields(clock, mm, ss, m, s);
  }

  lemma SixtyDivMod(n: nat)
    ensures n / 60 * 60 + n % 60 == n && n % 60 < 60
  {
  }

  /** A clock whose two fields are digit strings reads as minutes times
      sixty plus seconds. */
  lemma ClockFields(clock: string, mm: string, ss: string, m: nat, s: nat)
    requires clock == mm + ":" + ss && |ss| == 2
    requires AllRadixDigits(mm, 10) && RadixValue(mm, 10) == m
    requires AllRadixDigits(ss, 10) && RadixValue(ss, 10) == s
    ensures ClockSeconds(clock) == Some(m * 60 + s)
  {
    assert clock[|clock| - 3] == ':';
    assert clock[..|clock| - 3] == mm;
    assert clock[|clock| - 2..] == ss;
  }

  /** Padding a decimal with zeros keeps its digits and its value. */
  lemma PaddedDecimal(n: nat)
    ensures AllRadixDigits(TwoDigits(n), 10) && RadixValue(TwoDigits(n), 10) == n
  {
    DecimalRoundTrip(n);
    if |Decimal(n)| < 2 {
      LeadingZero(Decimal(n));
      assert TwoDigits(n) == "0" + Decimal(n);
    }
  }

  /** Below 100 a decimal has at most two digits, so the seconds field is
      exactly two characters. */
  lemma ShortDecimal(n: nat)
    requires n < 100
    ensures |TwoDigits(n)| == 2
  {
    if n >= 10 {
      assert Decimal(n) == Decimal(n / 10) + [DigitChar(n % 10)];
    }
  }
}

=== FILE: cache.dfy ===
/** The Vercel handler's in-memory result cache: a map from `video:<url>` to
    the response body and the time it was stored, with a one-hour lifetime
    and lazy deletion of expired entries on lookup. */
module TtlCache {

  datatype Entry<V> = Entry(data: V, timestamp: int)

  type Store<V> = map<string, Entry<V>>

  /** `CACHE_TTL`: one hour, in milliseconds. */
  const Ttl: int := 3600000

  /** The cache key of a request URL. */
  function Key(url: string): (k: string)
    ensures |k| == |url| + 6 && k[6..] == url
  {
    "video:" + url
  }

  /** Different URLs never share an entry. */
  lemma KeyInjective(a: string, b: string)
    requires Key(a) == Key(b)
    ensures a == b
  {
    assert a == Key(a)[6..];
  }

  /** `Date.now() - timestamp < CACHE_TTL`. A clock that went backwards
      leaves the entry fresh. */
  predicate Fresh<V>(e: Entry<V>, now: int) {
    now - e.timestamp < Ttl
  }

  datatype Lookup<V> = Hit(data: V) | Miss(store: Store<V>)

  /** `cache.has(key)` followed by the freshness check: a fresh entry is
      served, a stale one is deleted, and a missing one changes nothing. */
  function Get<V>(store: Store<V>, key: string, now: int): (r: Lookup<V>)
    ensures r.Hit? <==> key in store && Fresh(store[key], now)
    ensures r.Hit? ==> r.data == store[key].data
    ensures r.Miss? ==> key !in r.store && r.store.Keys <= store.Keys
    ensures r.Miss? ==> forall k :: k in store && k != key ==> k in r.store && r.store[k] == store[k]
  {
    if key in store && Fresh(store[key], now) then Hit(store[key].data)
    else Miss(map k | k in store && k != key :: store[k])
  }

  /** `cache.set(key, { data, timestamp })`. */
  function Put<V>(store: Store<V>, key: string, data: V, now: int): (r: Store<V>)
    ensures r.Keys == store.Keys + {key}
    ensures r[key] == Entry(data, now)
    ensures forall k :: k in store && k != key ==> r[k] == store[k]
  {
    store[key := Entry(data, now)]
  }

  /** What is stored is served back, exactly while it is younger than the
      lifetime. */
  lemma PutThenGet<V>(store: Store<V>, key: string, data: V, storedAt: int, now: int)
    ensures Get(Put(store, key, data, storedAt), key, now).Hit? <==> now - storedAt < Ttl
    ensures now - storedAt < Ttl ==> Get(Put(store, key, data, storedAt), key, now) == Hit(data)
  {
  }

  /** An expired entry is never served, and after the lookup it is gone. */
  lemma ExpiredNeverServed<V>(store: Store<V>, key: string, now: int)
    requires key in store && now - store[key].timestamp >= Ttl
    ensures Get(store, key, now).Miss?
    ensures key !in Get(store, key, now).store
  {
  }

  /** A lookup never touches the other keys: a second lookup of another key
      sees the same entry. */
  lemma GetIsolated<V>(store: Store<V>, key: string, other: string, now: int, later: int)
    requires key != other && Get(store, key, now).Miss?
    ensures Get(Get(store, key, now).store, other, later).Hit? <==> Get(store, other, later).Hit?
    ensures Get(store, other, later).Hit? ==> Get(Get(store, key, now).store, other, later) == Get(store, other, later)
  {
  }
}

=== FILE: chain.dfy ===
/** The fallback chains. Every handler tries its strategies as nested
    `try { return await a(id) } catch { try { return await b(id) } ... }`
    blocks: the first strategy that returns decides the result, and the ones
    after it never run. A strategy's effect is reduced to its outcome. */
module Chain {

  /** What one strategy does: it throws (`Fail`) or returns a value. */
  datatype Outcome<+T> = Fail | Ok(value: T)

  /** The nested `try`/`catch` over `attempts`, in order; `Fail` when the
      innermost `catch` rethrows. */
  function FirstOk<T>(attempts: seq<Outcome<T>>): (r: Outcome<T>)
    ensures r.Ok? <==> exists i :: 0 <= i < |attempts| && attempts[i].Ok?
    ensures r.Ok? ==> exists i :: 0 <= i < |attempts| && attempts[i] == r && forall j :: 0 <= j < i ==> attempts[j].Fail?
  {
    if attempts == [] then Fail
    else if attempts[0].Ok? then attempts[0]
    else
      var r := FirstOk(attempts[1..]);
      assert forall i :: 1 <= i < |attempts| ==> attempts[i] == attempts[1..][i - 1];
      r
  }

  /** How many strategies run: up to and including the first that returns. */
  function Consulted<T>(attempts: seq<Outcome<T>>): (n: nat)
    ensures n <= |attempts|
    ensures forall j :: 0 <= j < n - 1 ==> attempts[j].Fail?
    ensures n < |attempts| ==> n > 0 && attempts[n - 1].Ok?
    ensures n == |attempts| && n > 0 ==> attempts[n - 1].Ok? || forall j :: 0 <= j < n ==> attempts[j].Fail?
  {
    if attempts == [] then 0
    else if attempts[0].Ok? then 1
    else 1 + Consulted(attempts[1..])
  }

  /** The result depends only on the strategies that run: whatever the later
      ones would have done, the outcome is the same. */
  lemma FirstOkIgnoresLater<T>(attempts: seq<Outcome<T>>, later: seq<Outcome<T>>)
    requires exists i :: 0 <= i < |attempts| && attempts[i].Ok?
    ensures FirstOk(attempts[..Consulted(attempts)] + later) == FirstOk(attempts)
  {
    var n := Consulted(attempts);
    var i :| 0 <= i < |attempts| && attempts[i].Ok?;
    assert n > 0 && attempts[n - 1].Ok? by {
      if n == |attempts| {
        assert !attempts[i].Fail?;
      }
    }
    var before := attempts[..n - 1];
    var w := attempts[n - 1].value;
    assert attempts[..n] == before + [Ok(w)];
    assert attempts == before + [Ok(w)] + attempts[n..];
    FirstOkPrefix(before, w, later, attempts[n..]);
  }


  /** Once a strategy returns, replacing everything after it changes nothing. */
  lemma {:induction false} FirstOkPrefix<T>(before: seq<Outcome<T>>, winner: T, after1: seq<Outcome<T>>, after2: seq<Outcome<T>>)
    requires forall j :: 0 <= j < |before| ==> before[j].Fail?
    ensures FirstOk(before + [Ok(winner)] + after1) == Ok(winner)
    ensures FirstOk(before + [Ok(winner)] + after1) == FirstOk(before + [Ok(winner)] + after2)
  {
    if before == [] {
      assert (before + [Ok(winner)] + after1)[0] == Ok(winner);
      assert (before + [Ok(winner)] + after2)[0] == Ok(winner);
    } else {
      assert (before + [Ok(winner)] + after1)[1..] == before[1..] + [Ok(winner)] + after1;
      assert (before + [Ok(winner)] + after2)[1..] == before[1..] + [Ok(winner)] + after2;
      FirstOkPrefix(before[1..], winner, after1, after2);
    }
  }

  /** Two strategies and a fixed last resort: `try { a } catch { try { b }
      catch { return last } }`. */
  function Fallback2<T>(a: Outcome<T>, b: Outcome<T>, last: T): (r: T)
    ensures a.Ok? ==> r == a.value
    ensures a.Fail? && b.Ok? ==> r == b.value
    ensures a.Fail? && b.Fail? ==> r == last
  {
    var attempts := [a, b];
    assert attempts[0] == a && attempts[1] == b;
    OrElse(FirstOk(attempts), last)
  }

  /** A chain that ends in a fixed result instead of rethrowing, as the
      Vercel handler's chains do: it is total. */
  function OrElse<T>(o: Outcome<T>, fallback: T): (r: T)
    ensures o.Ok? ==> r == o.value
    ensures o.Fail? ==> r == fallback
  {
    match o
    case Ok(v) => v
    case Fail => fallback
  }
}

=== FILE: classifier.dfy ===
/** Platform detection and video-id extraction. The same four functions
    (`detectPlatform` or `isYouTubeUrl`/`isBilibiliUrl`, `extractYouTubeVideoId`,
    `extractBilibiliVideoId`) appear character for character in every handler
    variant and in the browser script, so they are modelled once here. */
module Classifier {
  import opened Js
  import opened Patterns

  datatype Platform = YouTube | Bilibili

  /** `/[?&]v=([^&#]*)/` */
  const WatchParam: Pattern := Pattern([{'?', '&'}, {'v'}, {'='}], {'&', '#'}, false)

  /** `/youtu\.be\/([^?&#]*)/` */
  const ShortLinkPath: Pattern := Pattern(Literal("youtu.be/"), {'?', '&', '#'}, false)

  /** `/youtube\.com\/embed\/([^?&#]*)/` */
  const EmbedPath: Pattern := Pattern(Literal("youtube.com/embed/"), {'?', '&', '#'}, false)

  /** `/bilibili\.com\/video\/([^\/\?]+)/` */
  const VideoPath: Pattern := Pattern(Literal("bilibili.com/video/"), {'/', '?'}, true)

  /** `/b23\.tv\/([^\/\?]+)/` */
  const B23Path: Pattern := Pattern(Literal("b23.tv/"), {'/', '?'}, true)

  /** `isYouTubeUrl`: a plain substring test, anywhere in the string. */
  function IsYouTubeUrl(url: string): (b: bool)
    ensures b <==> Contains(url, "youtube.com") || Contains(url, "youtu.be")
  {
    Includes(url, "youtube.com") || Includes(url, "youtu.be")
  }

  /** `isBilibiliUrl`. */
  function IsBilibiliUrl(url: string): (b: bool)
    ensures b <==> Contains(url, "bilibili.com") || Contains(url, "b23.tv")
  {
    Includes(url, "bilibili.com") || Includes(url, "b23.tv")
  }

  /** `detectPlatform`: YouTube markers are checked first, so a URL carrying
      markers of both platforms is YouTube. */
  function DetectPlatform(url: string): (r: Option<Platform>)
    ensures r == Some(YouTube) <==> Contains(url, "youtube.com") || Contains(url, "youtu.be")
    ensures r == Some(Bilibili) <==>
      && !Contains(url, "youtube.com") && !Contains(url, "youtu.be")
      && (Contains(url, "bilibili.com") || Contains(url, "b23.tv"))
    ensures r == None <==>
      && !Contains(url, "youtube.com") && !Contains(url, "youtu.be")
      && !Contains(url, "bilibili.com") && !Contains(url, "b23.tv")
  {
    if IsYouTubeUrl(url) then Some(YouTube)
    else if IsBilibiliUrl(url) then Some(Bilibili)
    else None
  }

  /** `extractYouTubeVideoId`: the `v=` parameter, then the `youtu.be/` path,
      then the `embed/` path. Each regex only looks at its leftmost match and an
      empty capture falls through to the next one. */
  function YouTubeVideoId(url: string): (r: Option<string>)
    ensures r.Some? ==> |r.value| > 0 && Contains(url, r.value)
    ensures r.Some? ==> forall k :: 0 <= k < |r.value| ==> r.value[k] != '&' && r.value[k] != '#'
    ensures r.Some? && (exists k :: 0 <= k < |r.value| && r.value[k] == '?') ==> r == Capture(url, WatchParam)
    ensures r.None? <==>
      && Capture(url, WatchParam).None?
      && Capture(url, ShortLinkPath).None?
      && Capture(url, EmbedPath).None?
    ensures Capture(url, WatchParam).Some? ==> r == Capture(url, WatchParam)
    ensures Capture(url, WatchParam).None? && Capture(url, ShortLinkPath).Some? ==> r == Capture(url, ShortLinkPath)
    ensures Capture(url, WatchParam).None? && Capture(url, ShortLinkPath).None? ==> r == Capture(url, EmbedPath)
  {
    match Capture(url, WatchParam)
    case Some(id) => Some(id)
    case None =>
      match Capture(url, ShortLinkPath)
      case Some(id) => Some(id)
      case None => Capture(url, EmbedPath)
  }

  /** `extractBilibiliVideoId`: the `video/` path before the `b23.tv/` path.
      Both captures use `+`, so a present capture is never empty, and a
      `video/` directly followed by `/` or `?` is skipped in favour of a later
      one. */
  function BilibiliVideoId(url: string): (r: Option<string>)
    ensures r.Some? ==> |r.value| > 0 && Contains(url, r.value)
    ensures r.Some? ==> forall k :: 0 <= k < |r.value| ==> r.value[k] != '/' && r.value[k] != '?'
    ensures r.None? <==>
      && (forall i: nat :: !MatchAt(url, VideoPath, i))
      && (forall i: nat :: !MatchAt(url, B23Path, i))
    ensures (exists i: nat :: MatchAt(url, VideoPath, i)) ==> r == Match(url, VideoPath)
    ensures (forall i: nat :: !MatchAt(url, VideoPath, i)) ==> r == Match(url, B23Path)
  {
    match Capture(url, VideoPath)
    case Some(id) => Some(id)
    case None => Capture(url, B23Path)
  }

  /** What a handler learns from a URL before any upstream is consulted. */
  datatype Classification =
    | Unsupported
    | NoVideoId(platform: Platform)
    | Video(platform: Platform, id: string)

  /** Platform detection followed by the platform's id extraction, as every
      handler does it. */
  function Classify(url: string): (r: Classification)
    ensures r == Unsupported <==> DetectPlatform(url).None?
    ensures !r.Unsupported? ==> DetectPlatform(url) == Some(r.platform)
    ensures r.Video? ==> |r.id| > 0 && Contains(url, r.id)
    ensures r.Video? && r.platform == YouTube ==> YouTubeVideoId(url) == Some(r.id)
    ensures r.Video? && r.platform == Bilibili ==> BilibiliVideoId(url) == Some(r.id)
    ensures r.NoVideoId? ==> (if r.platform == YouTube then YouTubeVideoId(url) else BilibiliVideoId(url)).None?
  {
    match DetectPlatform(url)
    case None => Unsupported
    case Some(YouTube) =>
      (match YouTubeVideoId(url) case Some(id) => Video(YouTube, id) case None => NoVideoId(YouTube))
    case Some(Bilibili) =>
      (match BilibiliVideoId(url) case Some(id) => Video(Bilibili, id) case None => NoVideoId(Bilibili))
  }

  // ---------------------------------------------------------------------------
  // The supported URL shapes

  /** An id as the supported URL shapes carry it: non-empty and free of the
      delimiters the patterns stop at. */
  predicate PlainId(id: string) {
    |id| > 0 && forall k :: 0 <= k < |id| ==> id[k] !in {'?', '&', '#', '/'}
  }

  /** `Classify` from the platform and the id found for it. */
  lemma ClassifyAs(url: string, platform: Platform, id: string)
    requires DetectPlatform(url) == Some(platform)
    requires (if platform == YouTube then YouTubeVideoId(url) else BilibiliVideoId(url)) == Some(id)
    ensures Classify(url) == Video(platform, id)
  {
  }
}

=== FILE: index.dfy ===
/** `api/index.js`: a handler that answers without any upstream, with three
    download-site links per video. */
module IndexApi {
  import opened Js
  import opened Media
  import opened Classifier

  /** The id-extraction errors of this handler, which differ from the
      unsupported-platform error. */
  const NoYouTubeIdHint: string := "无法识别YouTube视频ID，请确保链接格式正确"
  const NoBilibiliIdHint: string := "无法识别B站视频ID，请确保链接格式正确"

  /** `getYouTubeDirectLinks`. */
  function DirectYouTube(videoId: string): (r: VideoInfo)
    ensures r.id == videoId && r.title == YouTubeIdTitle(videoId) && r.uploader == YouTubeUploader
    ensures r.thumbnail.None? && r.apiSource == Some(VercelSource)
    ensures |r.formats| == 3 && LinksTo(r.formats, videoId)
    ensures r.formats[0].quality == "高清 (720p)" && r.formats[1].quality == "超清 (1080p)" && r.formats[2].quality == "原始质量"
    ensures forall i :: 0 <= i < 3 ==> r.formats[i].size == AutoDetect
    ensures r.formats[0].url == Some(SiteLink(Y2mateSite, videoId))
    ensures r.formats[1].url == Some(SiteLink(BuddySite, videoId))
    ensures r.formats[2].url == Some(SiteLink(SsYouTubeSite, videoId))
  {
    VideoInfo(videoId, YouTubeIdTitle(videoId), YouTubeUploader, None,
      [SiteFormat("高清 (720p)", AutoDetect, Y2mateSite, videoId),
       SiteFormat("超清 (1080p)", AutoDetect, BuddySite, videoId),
       SiteFormat("原始质量", AutoDetect, SsYouTubeSite, videoId)],
      Some(VercelSource))
  }

  /** `getBilibiliDirectLinks`. */
  function DirectBilibili(videoId: string): (r: VideoInfo)
    ensures r.id == videoId && r.title == BilibiliIdTitle(videoId) && r.uploader == BilibiliUploader
    ensures r.thumbnail.None? && r.apiSource == Some(VercelSource)
    ensures |r.formats| == 3 && LinksTo(r.formats, videoId)
    ensures r.formats[0].quality == "高清" && r.formats[1].quality == "原始质量" && r.formats[2].quality == "标清"
    ensures forall i :: 0 <= i < 3 ==> r.formats[i].size == AutoDetect
    ensures r.formats[0].url == Some(SiteLink(XbeibeixSite, videoId))
    ensures r.formats[1].url == Some(SiteLink(BiliIiilabSite, videoId))
    ensures r.formats[2].url == Some(SiteLink(InjahowSite, videoId))
  {
    VideoInfo(videoId, BilibiliIdTitle(videoId), BilibiliUploader, None,
      [SiteFormat("高清", AutoDetect, XbeibeixSite, videoId),
       SiteFormat("原始质量", AutoDetect, BiliIiilabSite, videoId),
       SiteFormat("标清", AutoDetect, InjahowSite, videoId)],
      Some(VercelSource))
  }

  /** The handler: a missing URL first, then YouTube before Bilibili, then
      the unsupported platform. */
  function Handle(query: Option<string>): (r: Response)
    ensures !Truthy(query) ==> r == BadRequest(MissingUrl)
    ensures r.BadRequest? <==> !Truthy(query) || !Classify(query.value).Video?
    ensures Truthy(query) && Classify(query.value) == Unsupported ==> r == BadRequest(UnsupportedPlatform)
    ensures Truthy(query) && Classify(query.value) == NoVideoId(YouTube) ==> r == BadRequest(NoYouTubeIdHint)
    ensures Truthy(query) && Classify(query.value) == NoVideoId(Bilibili) ==> r == BadRequest(NoBilibiliIdHint)
    ensures r.Success? ==> r.body.id == Classify(query.value).id && r.body.apiSource == Some(VercelSource)
    ensures r.Success? ==> |r.body.formats| == 3 && LinksTo(r.body.formats, r.body.id)
    ensures Truthy(query) && Classify(query.value).Video? ==>
      r == Success(if Classify(query.value).platform == YouTube then DirectYouTube(Classify(query.value).id)
                   else DirectBilibili(Classify(query.value).id))
  {
    if !Truthy(query) then BadRequest(MissingUrl)
    else
      var c := Classify(query.value);
      match c
      case Unsupported => BadRequest(UnsupportedPlatform)
      case NoVideoId(YouTube) => BadRequest(NoYouTubeIdHint)
      case NoVideoId(Bilibili) => BadRequest(NoBilibiliIdHint)
      case Video(YouTube, id) => Success(DirectYouTube(id))
      case Video(Bilibili, id) => Success(DirectBilibili(id))
  }

  /** A URL on a known platform without an id is told apart from an
      unsupported one, and the two platforms' messages differ. */
  lemma ErrorsDistinct(query: Option<string>)
    requires Truthy(query) && Classify(query.value).NoVideoId?
    ensures Handle(query).BadRequest?
    ensures Handle(query).error != UnsupportedPlatform && Handle(query).error != MissingUrl
    ensures Handle(query).error == (if Classify(query.value).platform == YouTube then NoYouTubeIdHint else NoBilibiliIdHint)
  {
  }
}

=== FILE: js.dfy ===
/** The JavaScript built-ins the handlers lean on, restated over Dafny strings:
    optional JSON fields and `||` on them, `String.prototype.includes`, `trim`,
    `padStart`, `Number.prototype.toString` on non-negative integers and the
    global `parseInt` with no radix argument. */
module Js {

  /** A JSON field that is either missing (`undefined` or `null`) or present. */
  datatype Option<+T> = None | Some(value: T)

  /** JavaScript truthiness of an optional string: present and non-empty. */
  predicate Truthy(v: Option<string>) {
    v.Some? && v.value != ""
  }

  /** `v || fallback` where `v` is an optional string. */
  function Or(v: Option<string>, fallback: string): string {
    if Truthy(v) then v.value else fallback
  }

  // ---------------------------------------------------------------------------
  // Substrings

  /** `t` occurs in `s` starting at index `i`. */
  predicate OccursAt(s: string, t: string, i: nat) {
    i + |t| <= |s| && s[i..i + |t|] == t
  }

  /** `t` is a substring of `s`. */
  ghost predicate Contains(s: string, t: string) {
    exists i: nat :: OccursAt(s, t, i)
  }

  /** `t` is a suffix of `s`. */
  predicate EndsWith(s: string, t: string) {
    |t| <= |s| && s[|s| - |t|..] == t
  }

  /** `s.indexOf(t, from)`, with `None` for -1. */
  function IndexOf(s: string, t: string, from: nat): (r: Option<nat>)
    decreases |s| - from
    ensures r.Some? ==> from <= r.value && OccursAt(s, t, r.value)
    ensures r.Some? ==> forall j :: from <= j < r.value ==> !OccursAt(s, t, j)
    ensures r.None? ==> forall j :: from <= j ==> !OccursAt(s, t, j)
  {
    if from + |t| > |s| then None
    else if s[from..from + |t|] == t then Some(from)
    else IndexOf(s, t, from + 1)
  }

  /** `s.includes(t)`. */
  function Includes(s: string, t: string): (b: bool)
    ensures b <==> Contains(s, t)
  {
    IndexOf(s, t, 0).Some?
  }

  /** `t` does not occur in `s` when its first character is absent before
      `cut` and its character at `b` is absent from `cut + b` on. */
  lemma NotContainsSplit(s: string, t: string, cut: nat, b: nat)
    requires b < |t|
    requires forall j :: 0 <= j < cut && j < |s| ==> s[j] != t[0]
    requires forall k :: cut + b <= k < |s| ==> s[k] != t[b]
    ensures !Contains(s, t)
  {
    forall i: nat | i + |t| <= |s| ensures !OccursAt(s, t, i) {
      assert s[i..i + |t|][0] == s[i];
      assert s[i..i + |t|][b] == s[i + b];
    }
  }

  lemma EndsWithConcat(p: string, t: string)
    ensures EndsWith(p + t, t)
  {
    assert (p + t)[|p + t| - |t|..] == t;
  }

  lemma EndsWithContains(s: string, t: string)
    requires EndsWith(s, t)
    ensures Contains(s, t)
  {
    assert OccursAt(s, t, |s| - |t|);
  }

  // ---------------------------------------------------------------------------
  // trim()

  /** The WhiteSpace and LineTerminator code points that `trim` and `parseInt`
      skip (section 12.2 and 12.3 of ECMA-262). */
  predicate IsSpace(c: char) {
    || c == '\t' || c == '\n' || c == '\U{B}' || c == '\U{C}' || c == '\r' || c == ' '
    || c == '\U{A0}' || c == '\U{1680}' || ('\U{2000}' <= c <= '\U{200A}')
    || c == '\U{2028}' || c == '\U{2029}' || c == '\U{202F}' || c == '\U{205F}'
    || c == '\U{3000}' || c == '\U{FEFF}'
  }

  predicate AllSpace(s: string) {
    forall k :: 0 <= k < |s| ==> IsSpace(s[k])
  }

  /** `s.trimStart()`: the suffix left after dropping leading white space. */
  function TrimStart(s: string): (r: string)
    ensures |r| <= |s| && r == s[|s| - |r|..]
    ensures AllSpace(s[..|s| - |r|])
    ensures r == [] || !IsSpace(r[0])
  {
    if s != [] && IsSpace(s[0]) then
      var r := TrimStart(s[1..]);
      TrimStartStep(s, r);
      r
    else s
  }

  /** A white-space character in front of a trimmed tail is part of the
      removed prefix. */
  lemma TrimStartStep(s: string, r: string)
    requires s != [] && IsSpace(s[0])
    requires |r| <= |s| - 1 && r == s[1..][|s| - 1 - |r|..]
    requires AllSpace(s[1..][..|s| - 1 - |r|])
    ensures r == s[|s| - |r|..]
    ensures AllSpace(s[..|s| - |r|])
  {
    var pre := s[..|s| - |r|];
    var tailPre := s[1..][..|s| - 1 - |r|];
    assert pre == [s[0]] + tailPre;
    forall k | 0 <= k < |pre| ensures IsSpace(pre[k]) {
      if k > 0 {
        assert pre[k] == tailPre[k - 1];
      }
    }
  }

  /** `s.trimEnd()`: the prefix left after dropping trailing white space. */
  function TrimEnd(s: string): (r: string)
    ensures |r| <= |s| && r == s[..|r|]
    ensures AllSpace(s[|r|..])
    ensures r == [] || !IsSpace(r[|r| - 1])
  {
    if s != [] && IsSpace(s[|s| - 1]) then
      var p := s[..|s| - 1];
      var r := TrimEnd(p);
      assert p[..|r|] == s[..|r|];
      assert s[|r|..] == p[|r|..] + [s[|s| - 1]];
      assert AllSpace(s[|r|..]) by {
        forall k | 0 <= k < |s| - |r| ensures IsSpace(s[|r|..][k]) {
          if k < |p| - |r| {
            assert s[|r|..][k] == p[|r|..][k];
          }
        }
      }
      r
    else s
  }

  /** `s.trim()`. */
  function Trim(s: string): string {
    TrimEnd(TrimStart(s))
  }

  /** A string trims to the empty string exactly when every character of it is
      white space. */
  lemma TrimEmptyIffBlank(s: string)
    ensures Trim(s) == [] <==> AllSpace(s)
  {
    var t := TrimStart(s);
    if Trim(s) == [] {
      assert t[0..] == t;
      assert t == [];
      assert s[..|s|] == s;
    }
  }

  /** Trimming twice is trimming once. */
  lemma TrimIdempotent(s: string)
    ensures Trim(Trim(s)) == Trim(s)
  {
    var t := TrimStart(s);
    var u := TrimEnd(t);
    if u != [] {
      assert u[0] == t[0];
      assert TrimStart(u) == u;
    }
  }

  // ---------------------------------------------------------------------------
  // Number.prototype.toString() and String.prototype.padStart()

  predicate IsDigit(c: char) {
    '0' <= c <= '9'
  }

  predicate AllDigits(s: string) {
    forall k :: 0 <= k < |s| ==> IsDigit(s[k])
  }

  function DigitChar(d: nat): (c: char)
    requires d < 10
    ensures IsDigit(c) && c as int - '0' as int == d
  {
    (48 + d) as char
  }

  /** `n.toString()` for a non-negative integer: decimal, no leading zeros. */
  function Decimal(n: nat): (r: string)
    ensures 1 <= |r| && AllDigits(r)
    ensures r[0] == '0' ==> n == 0 && r == "0"
  {
    if n < 10 then [DigitChar(n)] else Decimal(n / 10) + [DigitChar(n % 10)]
  }

  /** The value of a run of digits in `radix` (10 or 16). */
  function DigitValue(c: char, radix: nat): Option<nat> {
    if '0' <= c <= '9' && (c as int - '0' as int) < radix then Some(c as int - '0' as int)
    else if radix == 16 && 'a' <= c <= 'f' then Some(c as int - 'a' as int + 10)
    else if radix == 16 && 'A' <= c <= 'F' then Some(c as int - 'A' as int + 10)
    else None
  }

  predicate AllRadixDigits(s: string, radix: nat) {
    forall k :: 0 <= k < |s| ==> DigitValue(s[k], radix).Some?
  }

  function RadixValue(s: string, radix: nat): nat
    requires AllRadixDigits(s, radix)
  {
    if s == [] then 0
    else RadixValue(s[..|s| - 1], radix) * radix + DigitValue(s[|s| - 1], radix).value
  }

  /** The decimal string of `n` reads back as `n`. */
  lemma {:induction false} DecimalRoundTrip(n: nat)
    ensures AllRadixDigits(Decimal(n), 10)
    ensures RadixValue(Decimal(n), 10) == n
  {
    var r := Decimal(n);
    assert AllRadixDigits(r, 10) by {
      forall k | 0 <= k < |r| ensures DigitValue(r[k], 10).Some? {
        assert IsDigit(r[k]);
      }
    }
    if n >= 10 {
      DecimalRoundTrip(n / 10);
      assert r[..|r| - 1] == Decimal(n / 10);
    }
  }

  /** Leading zeros do not change the value of a decimal digit run. */
  lemma {:induction false} LeadingZero(s: string)
    requires AllRadixDigits(s, 10)
    ensures AllRadixDigits("0" + s, 10)
    ensures RadixValue("0" + s, 10) == RadixValue(s, 10)
  {
    var z := "0" + s;
    assert AllRadixDigits(z, 10) by {
      forall k | 0 <= k < |z| ensures DigitValue(z[k], 10).Some? {
        if k > 0 { assert z[k] == s[k - 1]; }
      }
    }
    if s != [] {
      assert z[..|z| - 1] == "0" + s[..|s| - 1];
      LeadingZero(s[..|s| - 1]);
    }
  }

  /** `s.padStart(width, fill)`. */
  function PadStart(s: string, width: nat, fill: char): (r: string)
    decreases width - |s|
    ensures |s| >= width ==> r == s
    ensures |s| < width ==> |r| == width
    ensures |r| >= |s| && r[|r| - |s|..] == s
    ensures forall k :: 0 <= k < |r| - |s| ==> r[k] == fill
  {
    if |s| >= width then s
    else
      var r := PadStart([fill] + s, width, fill);
      assert r[|r| - |s|..] == ([fill] + s)[1..];
      r
  }

  // ---------------------------------------------------------------------------
  // parseInt(s), radix undefined (section 19.2.5 of ECMA-262)

  /** Length of the longest prefix of `s` made of digits in `radix`. */
  function DigitRun(s: string, radix: nat): (n: nat)
    ensures n <= |s| && AllRadixDigits(s[..n], radix)
    ensures n == |s| || DigitValue(s[n], radix).None?
  {
    if s == [] || DigitValue(s[0], radix).None? then 0
    else
      var n := 1 + DigitRun(s[1..], radix);
      assert forall k :: 1 <= k < n ==> s[..n][k] == s[1..][..n - 1][k - 1];
      n
  }

  /** `parseInt(s)`: `None` stands for `NaN`. White space is skipped, one sign
      is accepted, a `0x`/`0X` prefix switches to hexadecimal, and the longest
      digit run that follows is read; no digits at all gives `NaN`. */
  function ParseInt(s: string): Option<int> {
    var t := TrimStart(s);
    var negative := t != [] && t[0] == '-';
    var u := if t != [] && (t[0] == '-' || t[0] == '+') then t[1..] else t;
    var hex := |u| >= 2 && u[0] == '0' && (u[1] == 'x' || u[1] == 'X');
    var radix := if hex then 16 else 10;
    var body := if hex then u[2..] else u;
    var n := DigitRun(body, radix);
    if n == 0 then None
    else
      var v: int := RadixValue(body[..n], radix);
      Some(if negative then -v else v)
  }

  /** A run of digits followed by a non-digit: the run is exactly the digits. */
  lemma {:induction false} DigitRunConcat(d: string, suffix: string)
    requires AllRadixDigits(d, 10)
    requires suffix == [] || !IsDigit(suffix[0])
    ensures DigitRun(d + suffix, 10) == |d|
  {
    var s := d + suffix;
    if d == [] {
      assert s == suffix;
    } else {
      assert s[0] == d[0];
      assert s[1..] == d[1..] + suffix;
      assert AllRadixDigits(d[1..], 10) by {
        forall k | 0 <= k < |d[1..]| ensures DigitValue(d[1..][k], 10).Some? {
          assert d[1..][k] == d[k + 1];
        }
      }
      DigitRunConcat(d[1..], suffix);
    }
  }

  /** `parseInt` of text that starts with a decimal digit other than a `0x`
      prefix: the leading digit run in base ten. */
  lemma ParseIntUnsigned(s: string)
    requires s != [] && IsDigit(s[0])
    requires !(|s| >= 2 && s[0] == '0' && (s[1] == 'x' || s[1] == 'X'))
    ensures DigitRun(s, 10) > 0
    ensures ParseInt(s) == Some(RadixValue(s[..DigitRun(s, 10)], 10) as int)
  {
    assert !IsSpace(s[0]);
    assert TrimStart(s) == s;
    assert s[0] != '-' && s[0] != '+';
    assert DigitValue(s[0], 10).Some?;
  }

  /** Text that starts with neither white space, a sign nor a digit parses
      to `NaN`. */
  lemma ParseIntNaN(s: string)
    requires s != [] && !IsSpace(s[0]) && !IsDigit(s[0]) && s[0] != '-' && s[0] != '+'
    ensures ParseInt(s) == None
  {
    assert TrimStart(s) == s;
    assert DigitValue(s[0], 10).None?;
  }

  /** A decimal number followed by text that does not continue it (a unit such
      as `p` or `MB`) parses back to that number. */
  lemma ParseIntDecimal(n: nat, suffix: string)
    requires suffix == [] || (!IsDigit(suffix[0]) && suffix[0] != 'x' && suffix[0] != 'X')
    ensures ParseInt(Decimal(n) + suffix) == Some(n)
  {
    var d := Decimal(n);
    var s := d + suffix;
    assert s[0] == d[0] && IsDigit(s[0]);
    assert !(|s| >= 2 && s[0] == '0' && (s[1] == 'x' || s[1] == 'X')) by {
      if |s| >= 2 && s[0] == '0' {
        assert d == "0";
        assert s[1] == suffix[0];
      }
    }
    ParseIntUnsigned(s);
    DecimalRoundTrip(n);
    DigitRunConcat(d, suffix);
    assert s[..|d|] == d;
  }

}

=== FILE: media.dfy ===
/** The records every handler returns: download formats, video information
    and the handlers' status/body decision, plus the labels and URLs that
    several handlers build the same way. */
module Media {
  import opened Js

  /** One download candidate `{ quality, format, size, url }`. `url` is
      optional because some mappers copy an upstream field that may be
      missing. */
  datatype Format = Format(quality: string, format: string, size: string, url: Option<string>)

  /** `{ id, title, uploader, thumbnail?, formats, apiSource? }`. */
  datatype VideoInfo = VideoInfo(
    id: string,
    title: string,
    uploader: string,
    thumbnail: Option<string>,
    formats: seq<Format>,
    apiSource: Option<string>)

  const Unknown: string := "未知"
  const Mp4: string := "mp4"
  const VercelSource: string := "Vercel API"
  const YouTubeUploader: string := "YouTube"
  const BilibiliUploader: string := "B站UP主"

  /** An mp4 candidate with a known URL. */
  function Mp4Format(quality: string, size: string, url: string): Format {
    Format(quality, Mp4, size, Some(url))
  }

  /** `YouTube视频 ${videoId}`, the title used when the upstream gives none. */
  function YouTubeTitle(id: string): string {
    "YouTube视频 " + id
  }

  /** `B站视频 ${videoId}`. */
  function BilibiliTitle(id: string): string {
    "B站视频 " + id
  }

  /** `https://img.youtube.com/vi/${videoId}/maxresdefault.jpg`. */
  function DefaultThumbnail(id: string): string {
    "https://img.youtube.com/vi/" + id + "/maxresdefault.jpg"
  }

  /** `YouTube视频 (ID: ${videoId})`, the title of the direct-link lists. */
  function YouTubeIdTitle(id: string): string {
    "YouTube视频 (ID: " + id + ")"
  }

  /** `B站视频 (ID: ${videoId})`. */
  function BilibiliIdTitle(id: string): string {
    "B站视频 (ID: " + id + ")"
  }

  /** The size label of the direct-link lists. */
  const AutoDetect: string := "自动检测"

  // ---------------------------------------------------------------------------
  // Download sites: each link is the site's prefix followed by the video id

  const Y2mateSite: string := "https://www.y2mate.com/youtube/"
  const BuddySite: string := "https://9xbuddy.org/download?url=https://www.youtube.com/watch?v="
  const SsYouTubeSite: string := "https://ssyoutube.com/watch?v="
  const SaveFromSite: string := "https://en.savefrom.net/1-youtube-video-downloader-5?url=https://www.youtube.com/watch?v="
  const XbeibeixSite: string := "https://xbeibeix.com/api/bilibili/biliplayer/?url=https://www.bilibili.com/video/"
  const BiliIiilabSite: string := "https://bili.iiilab.com/?bvid="
  const BilibiliIiilabSite: string := "https://bilibili.iiilab.com/?bvid="
  const InjahowSite: string := "https://injahow.com/bparse/?url=https://www.bilibili.com/video/"

  /** `${site}${videoId}`: the link embeds the id at its end. */
  function SiteLink(site: string, id: string): (u: string)
    ensures |u| == |site| + |id| && u[..|site|] == site
    ensures EndsWith(u, id)
  {
    EndsWithConcat(site, id);
    site + id
  }

  /** An mp4 candidate on a download site. */
  function SiteFormat(quality: string, size: string, site: string, id: string): (f: Format)
    ensures f.quality == quality && f.size == size && f.format == Mp4
    ensures f.url == Some(SiteLink(site, id))
  {
    Mp4Format(quality, size, SiteLink(site, id))
  }

  /** Every candidate is an mp4 whose URL ends with the video id, as the
      static fallback lists build them. */
  predicate LinksTo(formats: seq<Format>, id: string) {
    forall i :: 0 <= i < |formats| ==>
      formats[i].format == Mp4 && formats[i].url.Some? && EndsWith(formats[i].url.value, id)
  }

  /** Every candidate URL that ends with the id also contains it. */
  lemma LinksToContains(formats: seq<Format>, id: string, i: nat)
    requires LinksTo(formats, id) && i < |formats|
    ensures Contains(formats[i].url.value, id)
  {
    EndsWithContains(formats[i].url.value, id);
  }

  // ---------------------------------------------------------------------------
  // Byte counts as megabyte labels

  const Mebibyte: nat := 1024 * 1024

  /** `Math.round(bytes / (1024 * 1024))` for a non-negative byte count: the
      nearest whole number of mebibytes, halves rounded up. */
  function RoundedMegabytes(bytes: nat): (m: nat)
    ensures m * Mebibyte <= bytes + Mebibyte / 2 < (m + 1) * Mebibyte
  {
    (bytes + Mebibyte / 2) / Mebibyte
  }

  /** `size ? `${Math.round(size / (1024 * 1024))}MB` : '未知'`, where a
      missing or zero size is falsy. */
  function SizeLabel(size: Option<nat>): (r: string)
    ensures size.None? || size == Some(0) <==> r == Unknown
    ensures size.Some? && size.value > 0 ==> ParseInt(r) == Some(RoundedMegabytes(size.value))
  {
    if size.Some? && size.value != 0 then
      var r := Decimal(RoundedMegabytes(size.value)) + "MB";
      ParseIntDecimal(RoundedMegabytes(size.value), "MB");
      assert r[0] != Unknown[0];
      r
    else Unknown
  }

  // ---------------------------------------------------------------------------
  // Responses

  /** The status and JSON body the handlers send. Status 500 is left out: no
      modelled handler can reach its `catch` block. */
  datatype Response = BadRequest(error: string) | Success(body: VideoInfo)
  {
    function Status(): int {
      if BadRequest? then 400 else 200
    }
  }

  const MissingUrl: string := "请提供视频URL"
  const UnsupportedPlatform: string := "不支持的视频平台，目前仅支持YouTube和B站"
  /** The id-extraction errors of the two `video-info.js` handlers. */
  const NoYouTubeId: string := "无法提取YouTube视频ID"
  const NoBilibiliId: string := "无法提取B站视频ID"
}

=== FILE: patterns.dfy ===
/** The regular expressions that pull a video id out of a URL all have one
    shape: a fixed run of character classes, then one capture group of
    characters outside a stop set, repeated `*` (possibly empty) or `+` (at
    least one). `String.prototype.match` without the `g` flag returns the
    leftmost match; the greedy capture then runs up to the next stop character
    or the end of the string. These scanners state that behaviour directly
    instead of modelling general regular expressions. */
module Patterns {
  import opened Js

  /** `head` is the fixed part, one character class per position; `plus`
      says the capture is `[^stops]+` rather than `[^stops]*`. */
  datatype Pattern = Pattern(head: seq<set<char>>, stops: set<char>, plus: bool)

  /** The character classes of an escaped literal such as `youtu\.be\/`. */
  function Literal(t: string): (r: seq<set<char>>)
    ensures |r| == |t|
    ensures forall k :: 0 <= k < |t| ==> r[k] == {t[k]}
  {
    seq(|t|, k requires 0 <= k < |t| => {t[k]})
  }

  /** The pattern matches `s` at position `i`. */
  predicate MatchAt(s: string, p: Pattern, i: nat) {
    && i + |p.head| <= |s|
    && (forall k :: 0 <= k < |p.head| ==> s[i + k] in p.head[k])
    && (p.plus ==> i + |p.head| < |s| && s[i + |p.head|] !in p.stops)
  }

  /** A pattern whose head is a literal matches wherever the literal occurs
      and, for `+`, a non-stop character follows it. */
  lemma LiteralMatchAt(s: string, t: string, stops: set<char>, plus: bool, i: nat)
    requires OccursAt(s, t, i)
    requires plus ==> i + |t| < |s| && s[i + |t|] !in stops
    ensures MatchAt(s, Pattern(Literal(t), stops, plus), i)
  {
    forall k | 0 <= k < |t| ensures s[i + k] in Literal(t)[k] {
      assert s[i..i + |t|][k] == s[i + k];
    }
  }

  /** The end of the greedy capture that starts at `j`. */
  function CaptureEnd(s: string, stops: set<char>, j: nat): (e: nat)
    requires j <= |s|
    decreases |s| - j
    ensures j <= e <= |s|
    ensures forall k :: j <= k < e ==> s[k] !in stops
    ensures e == |s| || s[e] in stops
  {
    if j == |s| || s[j] in stops then j else CaptureEnd(s, stops, j + 1)
  }

  /** The leftmost position at or after `i` where the pattern matches. */
  function FirstMatchFrom(s: string, p: Pattern, i: nat): (r: Option<nat>)
    decreases |s| - i
    ensures r.Some? ==> i <= r.value && MatchAt(s, p, r.value)
    ensures r.Some? ==> forall j :: i <= j < r.value ==> !MatchAt(s, p, j)
    ensures r.None? ==> forall j :: i <= j ==> !MatchAt(s, p, j)
  {
    if i > |s| then None
    else if MatchAt(s, p, i) then Some(i)
    else FirstMatchFrom(s, p, i + 1)
  }

  /** A match with none before it is the one `FirstMatchFrom` finds. */
  lemma LeftmostIsFirst(s: string, p: Pattern)
    ensures forall i: nat :: MatchAt(s, p, i) && (forall j :: 0 <= j < i ==> !MatchAt(s, p, j)) ==>
      FirstMatchFrom(s, p, 0) == Some(i)
  {
    forall i: nat | MatchAt(s, p, i) && (forall j :: 0 <= j < i ==> !MatchAt(s, p, j))
      ensures FirstMatchFrom(s, p, 0) == Some(i)
    {
      var f := FirstMatchFrom(s, p, 0);
      assert f.Some?;
      assert !(f.value < i);
    }
  }

  /** The capture group of the match at `i`. */
  function CaptureAt(s: string, p: Pattern, i: nat): string
    requires MatchAt(s, p, i)
  {
    s[i + |p.head|..CaptureEnd(s, p.stops, i + |p.head|)]
  }

  /** `s.match(p)[1]`: the capture group of the leftmost match, if any. */
  function Match(s: string, p: Pattern): (r: Option<string>)
    ensures r.Some? <==> exists i: nat :: MatchAt(s, p, i)
    ensures r.Some? ==> forall k :: 0 <= k < |r.value| ==> r.value[k] !in p.stops
    ensures r.Some? && p.plus ==> |r.value| > 0
    ensures forall i: nat :: MatchAt(s, p, i) && (forall j :: 0 <= j < i ==> !MatchAt(s, p, j)) ==>
      r == Some(CaptureAt(s, p, i))
  {
    LeftmostIsFirst(s, p);
    match FirstMatchFrom(s, p, 0)
    case None => None
    case Some(i) => Some(CaptureAt(s, p, i))
  }

  /** `match && match[1]`: the capture when there is a match and the capture
      is non-empty (an empty string is falsy). */
  function Capture(s: string, p: Pattern): (r: Option<string>)
    ensures r.Some? ==> |r.value| > 0
    ensures r.Some? ==> forall k :: 0 <= k < |r.value| ==> r.value[k] !in p.stops
    ensures r.Some? ==> Contains(s, r.value)
    ensures p.plus ==> r == Match(s, p)
    ensures r == (if Match(s, p) == Some("") then None else Match(s, p))
  {
    match Match(s, p)
    case Some(c) =>
      if c == "" then None
      else
        var i := FirstMatchFrom(s, p, 0).value;
        assert OccursAt(s, c, i + |p.head|);
        Some(c)
    case None => None
  }

  // ---------------------------------------------------------------------------
  // Facts about the scanners

  /** Only the leftmost match counts: when its capture is empty, `Capture`
      gives nothing, whatever later matches would have captured. */
  lemma LeftmostEmptyHidesLater(s: string, p: Pattern, i: nat, j: nat)
    requires MatchAt(s, p, i) && forall k :: 0 <= k < i ==> !MatchAt(s, p, k)
    requires i + |p.head| == |s| || s[i + |p.head|] in p.stops
    requires i < j && MatchAt(s, p, j) && CaptureAt(s, p, j) != ""
    ensures Capture(s, p) == None
  {
    assert FirstMatchFrom(s, p, 0) == Some(i);
  }

  /** A match at `pos`, with no character before it in the first class of
      the head, is the leftmost match. */
  lemma {:induction false} FirstMatchIs(s: string, p: Pattern, pos: nat)
    requires |p.head| > 0 && MatchAt(s, p, pos)
    requires forall j :: 0 <= j < pos ==> s[j] !in p.head[0]
    ensures FirstMatchFrom(s, p, 0) == Some(pos)
    ensures Match(s, p) == Some(CaptureAt(s, p, pos))
  {
    var v := FirstMatchFrom(s, p, 0).value;
    assert s[v + 0] in p.head[0];
    assert !(pos < v);
  }

  /** No match starts at or after `from` when position `m` of the head needs
      a character that never occurs at or after `from + m`. */
  lemma NoMatchInTail(s: string, p: Pattern, from: nat, m: nat)
    requires m < |p.head|
    requires forall k :: from + m <= k < |s| ==> s[k] !in p.head[m]
    ensures forall j :: from <= j ==> !MatchAt(s, p, j)
  {
    forall j | from <= j ensures !MatchAt(s, p, j) {
      if j + |p.head| <= |s| {
        assert s[j + m] !in p.head[m];
      }
    }
  }

  /** No match at all when the first class of the head never occurs. */
  lemma NoMatchWithoutAnchor(s: string, p: Pattern)
    requires |p.head| > 0
    requires forall k :: 0 <= k < |s| ==> s[k] !in p.head[0]
    ensures Match(s, p) == None && Capture(s, p) == None
  {
    NoMatchInTail(s, p, 0, 0);
  }

  /** A capture that starts at `start` and runs over `id` to the end of the
      string is all of `id` when `id` holds no stop character. */
  lemma CaptureToEnd(s: string, stops: set<char>, start: nat, id: string)
    requires start + |id| == |s| && s[start..] == id
    requires forall k :: 0 <= k < |id| ==> id[k] !in stops
    ensures CaptureEnd(s, stops, start) == |s|
  {
  }

  /** The leftmost match at `pos` captures the whole rest of the string when
      that rest is a non-empty run without stop characters. */
  lemma CaptureIsTail(s: string, p: Pattern, pos: nat, id: string)
    requires |p.head| > 0 && MatchAt(s, p, pos)
    requires forall j :: 0 <= j < pos ==> s[j] !in p.head[0]
    requires pos + |p.head| + |id| == |s| && s[pos + |p.head|..] == id
    requires id != [] && forall k :: 0 <= k < |id| ==> id[k] !in p.stops
    ensures Capture(s, p) == Some(id)
  {
    FirstMatchIs(s, p, pos);
    CaptureToEnd(s, p.stops, pos + |p.head|, id);
    assert CaptureAt(s, p, pos) == id;
  }
}

=== FILE: qualitysort.dfy ===
/** The y2mate result order: `formats.sort((a, b) => (parseInt(b.quality) || 0)
    - (parseInt(a.quality) || 0))`. `Array.prototype.sort` is stable, so the
    result is the stable sort by descending rank, built here as an insertion
    sort over sequences. */
module QualitySort {
  import opened Js
  import opened Seqs
  import opened Media

  /** `parseInt(quality) || 0`: the leading integer of the label (`"1080p"`
      is 1080), with `NaN` read as 0. */
  function QualityRank(quality: string): (r: int)
    ensures ParseInt(quality).Some? ==> r == ParseInt(quality).value
    ensures ParseInt(quality).None? ==> r == 0
  {
    match ParseInt(quality)
    case Some(v) => v
    case None => 0
  }

  function Rank(f: Format): int {
    QualityRank(f.quality)
  }

  predicate NonIncreasing<T>(s: seq<T>, rank: T -> int) {
    forall i, j :: 0 <= i < j < |s| ==> rank(s[i]) >= rank(s[j])
  }

  /** The elements of one rank, in their order in `s`. */
  function OfRank<T>(s: seq<T>, rank: T -> int, k: int): seq<T> {
    Filter(s, HasRank(rank, k))
  }

  function HasRank<T>(rank: T -> int, k: int): T -> bool {
    (f: T) => rank(f) == k
  }

  /** Place `x` before the first element of smaller rank, that is after every
      element whose rank is at least as large. */
  function Insert<T>(s: seq<T>, x: T, rank: T -> int): (r: seq<T>)
    ensures |r| == |s| + 1
  {
    if s == [] then [x]
    else if rank(s[0]) < rank(x) then [x] + s
    else [s[0]] + Insert(s[1..], x, rank)
  }

  /** A stable comparator sort by descending rank: each element in turn is
      inserted into the sorted prefix. */
  function SortBy<T>(s: seq<T>, rank: T -> int): (r: seq<T>)
    ensures |r| == |s|
  {
    if s == [] then []
    else Insert(SortBy(s[..|s| - 1], rank), s[|s| - 1], rank)
  }

  lemma {:induction false} InsertPermutes<T>(s: seq<T>, x: T, rank: T -> int)
    ensures multiset(Insert(s, x, rank)) == multiset(s) + multiset{x}
  {
    if s != [] && rank(s[0]) >= rank(x) {
      InsertPermutes(s[1..], x, rank);
      assert s == [s[0]] + s[1..];
    }
  }

  /** An upper bound on the ranks of `s` and of `x` bounds the ranks after
      insertion. */
  lemma {:induction false} InsertBounded<T>(s: seq<T>, x: T, rank: T -> int, b: int)
    requires forall m :: 0 <= m < |s| ==> rank(s[m]) <= b
    requires rank(x) <= b
    ensures forall i :: 0 <= i < |Insert(s, x, rank)| ==> rank(Insert(s, x, rank)[i]) <= b
  {
    if s != [] && rank(s[0]) >= rank(x) {
      assert forall m :: 0 <= m < |s[1..]| ==> rank(s[1..][m]) <= b by {
        forall m | 0 <= m < |s[1..]| ensures rank(s[1..][m]) <= b {
          assert s[1..][m] == s[m + 1];
        }
      }
      InsertBounded(s[1..], x, rank, b);
    }
  }

  lemma {:induction false} TailNonIncreasing<T>(s: seq<T>, rank: T -> int)
    requires s != [] && NonIncreasing(s, rank)
    ensures NonIncreasing(s[1..], rank)
    ensures forall j :: 0 <= j < |s[1..]| ==> rank(s[1..][j]) <= rank(s[0])
  {
    var t := s[1..];
    forall i, j | 0 <= i < j < |t| ensures rank(t[i]) >= rank(t[j]) {
      assert t[i] == s[i + 1] && t[j] == s[j + 1];
    }
    forall j | 0 <= j < |t| ensures rank(t[j]) <= rank(s[0]) {
      assert t[j] == s[j + 1];
    }
  }

  /** An element ranked at least as high as everything after it keeps a
      non-increasing sequence non-increasing. */
  lemma PrependSorted<T>(h: T, u: seq<T>, rank: T -> int)
    requires NonIncreasing(u, rank)
    requires forall m :: 0 <= m < |u| ==> rank(u[m]) <= rank(h)
    ensures NonIncreasing([h] + u, rank)
  {
    var r := [h] + u;
    forall i, j | 0 <= i < j < |r| ensures rank(r[i]) >= rank(r[j]) {
      assert r[j] == u[j - 1];
      if i > 0 {
        assert r[i] == u[i - 1];
      }
    }
  }

  lemma {:induction false} InsertSorted<T>(s: seq<T>, x: T, rank: T -> int)
    requires NonIncreasing(s, rank)
    ensures NonIncreasing(Insert(s, x, rank), rank)
  {
    if s == [] {
    } else if rank(s[0]) < rank(x) {
      assert forall m :: 0 <= m < |s| ==> rank(s[m]) <= rank(x) by {
        forall m | 0 <= m < |s| ensures rank(s[m]) <= rank(x) {
          assert rank(s[0]) >= rank(s[m]) || m == 0;
        }
      }
      PrependSorted(x, s, rank);
    } else {
      var t := s[1..];
      TailNonIncreasing(s, rank);
      InsertSorted(t, x, rank);
      assert forall m :: 0 <= m < |t| ==> rank(t[m]) <= rank(s[0]) by {
        forall m | 0 <= m < |t| ensures rank(t[m]) <= rank(s[0]) {
          assert t[m] == s[m + 1];
        }
      }
      InsertBounded(t, x, rank, rank(s[0]));
      PrependSorted(s[0], Insert(t, x, rank), rank);
    }
  }


  /** Inserting keeps the elements of each rank in order, with `x` last
      among its rank. */
  lemma {:induction false} InsertStable<T>(s: seq<T>, x: T, rank: T -> int, k: int)
    requires NonIncreasing(s, rank)
    ensures OfRank(Insert(s, x, rank), rank, k) == OfRank(s, rank, k) + OfRank([x], rank, k)
  {
    if s == [] {
      assert Insert(s, x, rank) == [x];
      assert OfRank(s, rank, k) == [];
    } else if rank(s[0]) < rank(x) {
      InsertFront(s, x, rank, k);
    } else {
      var t := s[1..];
      TailNonIncreasing(s, rank);
      InsertStable(t, x, rank, k);
      assert Insert(s, x, rank) == [s[0]] + Insert(t, x, rank);
      assert s == [s[0]] + t;
      FilterCons(s[0], Insert(t, x, rank), t, OfRank([x], rank, k), HasRank(rank, k));
    }
  }

  /** The case where `x` goes in front. */
  lemma InsertFront<T>(s: seq<T>, x: T, rank: T -> int, k: int)
    requires NonIncreasing(s, rank)
    requires s != [] && rank(s[0]) < rank(x)
    ensures OfRank(Insert(s, x, rank), rank, k) == OfRank(s, rank, k) + OfRank([x], rank, k)
  {
    assert Insert(s, x, rank) == [x] + s;
    FilterAppend([x], s, HasRank(rank, k));
    if rank(x) == k {
      NoneOfRank(s, rank, k);
    } else {
      assert [x][1..] == [];
      assert OfRank([x], rank, k) == [];
    }
  }

  /** A non-increasing sequence headed by a rank below `k` holds nothing of
      rank `k`. */
  lemma NoneOfRank<T>(s: seq<T>, rank: T -> int, k: int)
    requires s != [] && rank(s[0]) < k && NonIncreasing(s, rank)
    ensures OfRank(s, rank, k) == []
  {
    forall i | 0 <= i < |s| ensures !HasRank(rank, k)(s[i]) {
      assert i == 0 || rank(s[0]) >= rank(s[i]);
    }
    FilterNone(s, HasRank(rank, k));
  }

  /** The sort is a permutation of its input. */
  lemma {:induction false} SortByPermutes<T>(s: seq<T>, rank: T -> int)
    ensures multiset(SortBy(s, rank)) == multiset(s)
  {
    if s != [] {
      var init := s[..|s| - 1];
      SortByPermutes(init, rank);
      InsertPermutes(SortBy(init, rank), s[|s| - 1], rank);
      assert s == init + [s[|s| - 1]];
    }
  }

  /** The sort orders by descending rank. */
  lemma {:induction false} SortBySorted<T>(s: seq<T>, rank: T -> int)
    ensures NonIncreasing(SortBy(s, rank), rank)
  {
    if s != [] {
      SortBySorted(s[..|s| - 1], rank);
      InsertSorted(SortBy(s[..|s| - 1], rank), s[|s| - 1], rank);
    }
  }

  /** The sort is stable: the elements of every rank keep their original
      relative order. With the two lemmas above this determines the result of
      any stable sort with this comparator. */
  lemma {:induction false} SortByStable<T>(s: seq<T>, rank: T -> int, k: int)
    ensures OfRank(SortBy(s, rank), rank, k) == OfRank(s, rank, k)
  {
    if s != [] {
      var init := s[..|s| - 1];
      var x := s[|s| - 1];
      SortByStable(init, rank, k);
      SortBySorted(init, rank);
      InsertStable(SortBy(init, rank), x, rank, k);
      assert s == init + [x];
      FilterAppend(init, [x], HasRank(rank, k));
    }
  }

  /** An element ranked no higher than any element of `p` goes at the end. */
  lemma {:induction false} InsertLast<T>(p: seq<T>, x: T, rank: T -> int)
    requires forall m :: 0 <= m < |p| ==> rank(p[m]) >= rank(x)
    ensures Insert(p, x, rank) == p + [x]
  {
    if p != [] {
      assert forall m :: 0 <= m < |p[1..]| ==> rank(p[1..][m]) >= rank(x) by {
        forall m | 0 <= m < |p[1..]| ensures rank(p[1..][m]) >= rank(x) {
          assert p[1..][m] == p[m + 1];
        }
      }
      InsertLast(p[1..], x, rank);
      assert p + [x] == [p[0]] + (p[1..] + [x]);
    }
  }

  /** The sort leaves a list that is already in order exactly as it is. */
  lemma {:induction false} SortedUnchanged<T>(s: seq<T>, rank: T -> int)
    requires NonIncreasing(s, rank)
    ensures SortBy(s, rank) == s
  {
    if s != [] {
      var p := s[..|s| - 1];
      assert NonIncreasing(p, rank) by {
        forall i, j | 0 <= i < j < |p| ensures rank(p[i]) >= rank(p[j]) {
          assert p[i] == s[i] && p[j] == s[j];
        }
      }
      SortedUnchanged(p, rank);
      forall m | 0 <= m < |p| ensures rank(p[m]) >= rank(s[|s| - 1]) {
        assert p[m] == s[m];
      }
      InsertLast(p, s[|s| - 1], rank);
      assert p + [s[|s| - 1]] == s;
    }
  }

  /** The y2mate order: formats by descending `parseInt(quality) || 0`. */
  function SortByQuality(formats: seq<Format>): (r: seq<Format>)
    ensures multiset(r) == multiset(formats)
    ensures NonIncreasing(r, Rank)
    ensures forall k :: OfRank(r, Rank, k) == OfRank(formats, Rank, k)
  {
    var r := SortBy(formats, Rank);
    forall k ensures OfRank(r, Rank, k) == OfRank(formats, Rank, k) {
      SortByStable(formats, Rank, k);
    }
    SortByPermutes(formats, Rank);
    SortBySorted(formats, Rank);
    r
  }

  /** Sorting an already sorted list changes nothing. */
  lemma SortByQualityIdempotent(formats: seq<Format>)
    ensures SortByQuality(SortByQuality(formats)) == SortByQuality(formats)
  {
    SortedUnchanged(SortByQuality(formats), Rank);
  }
}

=== FILE: seqs.dfy ===
/** `Array.prototype.filter` and `Array.prototype.map` over sequences. */
module Seqs {

  /** `s.filter(keep)`: the elements that satisfy `keep`, in their original order. */
  function Filter<T>(s: seq<T>, keep: T -> bool): (r: seq<T>)
    ensures |r| <= |s|
    ensures forall i :: 0 <= i < |r| ==> keep(r[i])
  {
    if s == [] then []
    else if keep(s[0]) then [s[0]] + Filter(s[1..], keep)
    else Filter(s[1..], keep)
  }

  /** The filter keeps exactly the elements that satisfy `keep`. */
  lemma {:induction false} FilterMembers<T>(s: seq<T>, keep: T -> bool)
    ensures forall i :: 0 <= i < |Filter(s, keep)| ==> Filter(s, keep)[i] in s
    ensures forall i :: 0 <= i < |s| && keep(s[i]) ==> s[i] in Filter(s, keep)
  {
    if s != [] {
      var rest := Filter(s[1..], keep);
      FilterMembers(s[1..], keep);
      var r := Filter(s, keep);
      forall i | 0 <= i < |r| ensures r[i] in s {
        if !keep(s[0]) || i > 0 {
          var j := if keep(s[0]) then i - 1 else i;
          assert r[i] == rest[j];
          assert rest[j] in s[1..];
        }
      }
      forall i | 0 <= i < |s| && keep(s[i]) ensures s[i] in r {
        if i > 0 {
          assert s[i] == s[1..][i - 1];
          assert s[i] in rest;
        }
      }
    }
  }

  /** Filtering distributes over concatenation, so the kept elements keep
      their relative order. */
  lemma {:induction false} FilterAppend<T>(a: seq<T>, b: seq<T>, keep: T -> bool)
    ensures Filter(a + b, keep) == Filter(a, keep) + Filter(b, keep)
  {
    if a == [] {
      assert a + b == b;
    } else {
      assert (a + b)[1..] == a[1..] + b;
      FilterAppend(a[1..], b, keep);
    }
  }

  /** Every element passes the filter exactly when the filter drops nothing. */
  lemma {:induction false} FilterKeepsAll<T>(s: seq<T>, keep: T -> bool)
    ensures Filter(s, keep) == s <==> forall i :: 0 <= i < |s| ==> keep(s[i])
  {
    if s != [] {
      FilterKeepsAll(s[1..], keep);
      if Filter(s, keep) == s {
        assert keep(s[0]);
        assert Filter(s[1..], keep) == s[1..];
        forall i | 0 <= i < |s| ensures keep(s[i]) {
          if i > 0 { assert s[i] == s[1..][i - 1]; }
        }
      }
      if forall i :: 0 <= i < |s| ==> keep(s[i]) {
        assert forall i :: 0 <= i < |s[1..]| ==> keep(s[1..][i]) by {
          forall i | 0 <= i < |s[1..]| ensures keep(s[1..][i]) {
            assert s[1..][i] == s[i + 1];
          }
        }
      }
    }
  }

  /** Putting the same element in front of two sequences preserves a
      relation between their filtered forms. */
  lemma FilterCons<T>(h: T, u: seq<T>, t: seq<T>, extra: seq<T>, keep: T -> bool)
    requires Filter(u, keep) == Filter(t, keep) + extra
    ensures Filter([h] + u, keep) == Filter([h] + t, keep) + extra
  {
    assert ([h] + u)[0] == h && ([h] + u)[1..] == u;
    assert ([h] + t)[0] == h && ([h] + t)[1..] == t;
    if keep(h) {
      assert [h] + (Filter(t, keep) + extra) == ([h] + Filter(t, keep)) + extra;
    }
  }

  /** Nothing passes the filter when no element satisfies `keep`. */
  lemma {:induction false} FilterNone<T>(s: seq<T>, keep: T -> bool)
    requires forall i :: 0 <= i < |s| ==> !keep(s[i])
    ensures Filter(s, keep) == []
  {
    if s != [] {
      assert forall i :: 0 <= i < |s[1..]| ==> !keep(s[1..][i]) by {
        forall i | 0 <= i < |s[1..]| ensures !keep(s[1..][i]) {
          assert s[1..][i] == s[i + 1];
        }
      }
      FilterNone(s[1..], keep);
    }
  }

  /** `s.map(f)`. */
  function Map<A, B>(s: seq<A>, f: A -> B): (r: seq<B>)
    ensures |r| == |s|
    ensures forall i :: 0 <= i < |s| ==> r[i] == f(s[i])
  {
    seq(|s|, i requires 0 <= i < |s| => f(s[i]))
  }

  lemma MapAppend<A, B>(a: seq<A>, b: seq<A>, f: A -> B)
    ensures Map(a + b, f) == Map(a, f) + Map(b, f)
  {
  }
}

=== FILE: shapes.dfy ===
/** The URL shapes the handlers are written for, and what `Classify` makes of
    each: the three YouTube shapes and the two Bilibili shapes. */
module Shapes {
  import opened Js
  import opened Patterns
  import opened Classifier

  /** A Bilibili id as it appears in practice (`BV1xx411c7mD`, `av170001`,
      a `b23.tv` short code): non-empty ASCII letters and digits. */
  predicate AlnumId(id: string) {
    |id| > 0 && forall k :: 0 <= k < |id| ==> ('0' <= id[k] <= '9' || 'a' <= id[k] <= 'z' || 'A' <= id[k] <= 'Z')
  }

  /** A URL made of a fixed prefix without `?` or `&`, followed by a plain id,
      holds neither character anywhere. */
  lemma NoQueryMarks(prefix: string, id: string)
    requires '?' !in prefix && '&' !in prefix
    requires PlainId(id)
    ensures forall k :: 0 <= k < |prefix + id| ==> (prefix + id)[k] !in {'?', '&'}
  {
    forall k | 0 <= k < |prefix + id| ensures (prefix + id)[k] !in {'?', '&'} {
      if k < |prefix| {
        assert (prefix + id)[k] == prefix[k];
      } else {
        assert (prefix + id)[k] == id[k - |prefix|];
      }
    }
  }

  // ---------------------------------------------------------------------------
  // YouTube

  /** `https://www.youtube.com/watch?v=ID` yields `ID`. */
  lemma {:induction false} WatchUrlShape(id: string)
    requires PlainId(id)
    ensures Classify("https://www.youtube.com/watch?v=" + id) == Video(YouTube, id)
  {
    var s := "https://www.youtube.com/watch?v=" + id;
    WatchHost(id);
    WatchCapture(id);
    ClassifyAs(s, YouTube, id);
  }

  lemma {:induction false} WatchHost(id: string)
    ensures DetectPlatform("https://www.youtube.com/watch?v=" + id) == Some(YouTube)
  {
    var s := "https://www.youtube.com/watch?v=" + id;
    assert OccursAt(s, "youtube.com", 12) by {
      assert s[12..23] == "youtube.com";
    }
  }

  lemma {:induction false} WatchCapture(id: string)
    requires PlainId(id)
    ensures YouTubeVideoId("https://www.youtube.com/watch?v=" + id) == Some(id)
  {
    var a := "https://www.youtube.com/watch";
    var s := a + "?v=" + id;
    assert s == "https://www.youtube.com/watch?v=" + id;
    assert s[29] == '?' && s[30] == 'v' && s[31] == '=';
    assert MatchAt(s, WatchParam, 29);
    forall j | 0 <= j < 29 ensures s[j] !in WatchParam.head[0] {
      assert s[j] == a[j];
    }
    assert s[32..] == id;
    CaptureIsTail(s, WatchParam, 29, id);
  }

  /** `https://youtu.be/ID` yields `ID`. */
  lemma {:induction false} ShortUrlShape(id: string)
    requires PlainId(id)
    ensures Classify("https://youtu.be/" + id) == Video(YouTube, id)
  {
    var s := "https://youtu.be/" + id;
    ShortHost(id);
    ShortVideoId(id);
    ClassifyAs(s, YouTube, id);
  }

  lemma {:induction false} ShortHost(id: string)
    ensures DetectPlatform("https://youtu.be/" + id) == Some(YouTube)
  {
    var s := "https://youtu.be/" + id;
    assert OccursAt(s, "youtu.be", 8) by {
      assert s[8..16] == "youtu.be";
    }
  }

  lemma {:induction false} ShortVideoId(id: string)
    requires PlainId(id)
    ensures YouTubeVideoId("https://youtu.be/" + id) == Some(id)
  {
    var s := "https://youtu.be/" + id;
    NoQueryMarks("https://youtu.be/", id);
    NoMatchWithoutAnchor(s, WatchParam);
    ShortCapture(id);
  }

  lemma {:induction false} ShortCapture(id: string)
    requires PlainId(id)
    ensures Capture("https://youtu.be/" + id, ShortLinkPath) == Some(id)
  {
    var a := "https://";
    var s := a + "youtu.be/" + id;
    assert s == "https://youtu.be/" + id;
    assert OccursAt(s, "youtu.be/", 8) by {
      assert s[8..17] == "youtu.be/";
    }
    LiteralMatchAt(s, "youtu.be/", ShortLinkPath.stops, false, 8);
    forall j | 0 <= j < 8 ensures s[j] !in ShortLinkPath.head[0] {
      assert s[j] == a[j];
    }
    assert s[17..] == id;
    CaptureIsTail(s, ShortLinkPath, 8, id);
  }

  /** `https://www.youtube.com/embed/ID` yields `ID`. */
  lemma {:induction false} EmbedUrlShape(id: string)
    requires PlainId(id)
    ensures Classify("https://www.youtube.com/embed/" + id) == Video(YouTube, id)
  {
    var s := "https://www.youtube.com/embed/" + id;
    EmbedHost(id);
    EmbedVideoId(id);
    ClassifyAs(s, YouTube, id);
  }

  lemma {:induction false} EmbedHost(id: string)
    ensures DetectPlatform("https://www.youtube.com/embed/" + id) == Some(YouTube)
  {
    var s := "https://www.youtube.com/embed/" + id;
    assert OccursAt(s, "youtube.com", 12) by {
      assert s[12..23] == "youtube.com";
    }
  }

  lemma {:induction false} EmbedVideoId(id: string)
    requires PlainId(id)
    ensures YouTubeVideoId("https://www.youtube.com/embed/" + id) == Some(id)
  {
    var s := "https://www.youtube.com/embed/" + id;
    NoQueryMarks("https://www.youtube.com/embed/", id);
    NoMatchWithoutAnchor(s, WatchParam);
    EmbedHasNoShortLink(id);
    EmbedCapture(id);
  }

  /** The `youtu.be/` pattern finds nothing in an embed URL. */
  lemma {:induction false} EmbedHasNoShortLink(id: string)
    requires PlainId(id)
    ensures Capture("https://www.youtube.com/embed/" + id, ShortLinkPath) == None
  {
    var a := "https://www.";
    var c := "outube.com/embed/";
    var s := a + "y" + c + id;
    assert s == "https://www.youtube.com/embed/" + id;
    var head := ShortLinkPath.head;
    assert head[0] == {'y'} && head[5] == {'.'} && head[8] == {'/'};
    forall k | 30 <= k < |s| ensures s[k] !in ShortLinkPath.head[8] {
      assert s[k] == id[k - 30];
    }
    NoMatchInTail(s, ShortLinkPath, 22, 8);
    forall j | 0 <= j < 22 ensures !MatchAt(s, ShortLinkPath, j) {
      if j < 12 {
        assert s[j + 0] == a[j];
        assert s[j + 0] !in head[0];
      } else if j == 12 {
        assert s[12 + 5] == 'b';
        assert s[j + 5] !in head[5];
      } else {
        assert s[j + 0] == c[j - 13];
        assert s[j + 0] !in head[0];
      }
    }
  }

  lemma {:induction false} EmbedCapture(id: string)
    requires PlainId(id)
    ensures Capture("https://www.youtube.com/embed/" + id, EmbedPath) == Some(id)
  {
    var a := "https://www.";
    var s := a + "youtube.com/embed/" + id;
    assert s == "https://www.youtube.com/embed/" + id;
    assert OccursAt(s, "youtube.com/embed/", 12) by {
      assert s[12..30] == "youtube.com/embed/";
    }
    LiteralMatchAt(s, "youtube.com/embed/", EmbedPath.stops, false, 12);
    forall j | 0 <= j < 12 ensures s[j] !in EmbedPath.head[0] {
      assert s[j] == a[j];
    }
    assert s[30..] == id;
    CaptureIsTail(s, EmbedPath, 12, id);
  }

  // ---------------------------------------------------------------------------
  // Bilibili

  /** A URL with a prefix free of `y`, followed by an id free of `.`, carries
      no YouTube marker. */
  lemma {:induction false} NoYouTubeMarker(prefix: string, id: string)
    requires 'y' !in prefix
    requires forall k :: 0 <= k < |id| ==> id[k] != '.'
    ensures !Contains(prefix + id, "youtube.com") && !Contains(prefix + id, "youtu.be")
  {
    var s := prefix + id;
    assert forall j :: 0 <= j < |prefix| && j < |s| ==> s[j] != 'y' by {
      forall j | 0 <= j < |prefix| && j < |s| ensures s[j] != 'y' {
        assert s[j] == prefix[j];
      }
    }
    assert forall k :: |prefix| <= k < |s| ==> s[k] != '.' by {
      forall k | |prefix| <= k < |s| ensures s[k] != '.' {
        assert s[k] == id[k - |prefix|];
      }
    }
    NotContainsSplit(s, "youtube.com", |prefix|, 7);
    NotContainsSplit(s, "youtu.be", |prefix|, 5);
  }

  /** `https://www.bilibili.com/video/ID` yields `ID`. */
  lemma {:induction false} VideoUrlShape(id: string)
    requires AlnumId(id)
    ensures Classify("https://www.bilibili.com/video/" + id) == Video(Bilibili, id)
  {
    var s := "https://www.bilibili.com/video/" + id;
    VideoHost(id);
    VideoCapture(id);
    ClassifyAs(s, Bilibili, id);
  }

  lemma {:induction false} VideoHost(id: string)
    requires AlnumId(id)
    ensures DetectPlatform("https://www.bilibili.com/video/" + id) == Some(Bilibili)
  {
    var s := "https://www.bilibili.com/video/" + id;
    NoYouTubeMarker("https://www.bilibili.com/video/", id);
    assert OccursAt(s, "bilibili.com", 12) by {
      assert s[12..24] == "bilibili.com";
    }
  }

  lemma {:induction false} VideoCapture(id: string)
    requires AlnumId(id)
    ensures Capture("https://www.bilibili.com/video/" + id, VideoPath) == Some(id)
    ensures BilibiliVideoId("https://www.bilibili.com/video/" + id) == Some(id)
  {
    var a := "https://www.";
    var s := a + "bilibili.com/video/" + id;
    assert s == "https://www.bilibili.com/video/" + id;
    assert OccursAt(s, "bilibili.com/video/", 12) by {
      assert s[12..31] == "bilibili.com/video/";
    }
    assert s[31] == id[0];
    LiteralMatchAt(s, "bilibili.com/video/", VideoPath.stops, true, 12);
    forall j | 0 <= j < 12 ensures s[j] !in VideoPath.head[0] {
      assert s[j] == a[j];
    }
    assert s[31..] == id;
    CaptureIsTail(s, VideoPath, 12, id);
  }

  /** `https://b23.tv/CODE` yields `CODE`, the short code that is later
      resolved by following the redirect. */
  lemma {:induction false} B23UrlShape(id: string)
    requires AlnumId(id)
    ensures Classify("https://b23.tv/" + id) == Video(Bilibili, id)
  {
    var s := "https://b23.tv/" + id;
    B23Host(id);
    B23Capture(id);
    ClassifyAs(s, Bilibili, id);
  }

  lemma {:induction false} B23Host(id: string)
    requires AlnumId(id)
    ensures DetectPlatform("https://b23.tv/" + id) == Some(Bilibili)
  {
    var s := "https://b23.tv/" + id;
    NoYouTubeMarker("https://b23.tv/", id);
    assert OccursAt(s, "b23.tv", 8) by {
      assert s[8..14] == "b23.tv";
    }
  }

  /** The `video/` pattern finds nothing in a short link, so the `b23.tv/`
      pattern decides. */
  lemma {:induction false} B23HasNoVideoPath(id: string)
    requires AlnumId(id)
    ensures Capture("https://b23.tv/" + id, VideoPath) == None
  {
    var a := "https://b23.tv/";
    var s := a + id;
    var head := VideoPath.head;
    assert head[0] == {'b'} && head[12] == {'/'};
    forall k | 15 <= k < |s| ensures s[k] !in head[12] {
      assert s[k] == id[k - 15];
    }
    NoMatchInTail(s, VideoPath, 3, 12);
    forall j | 0 <= j < 3 ensures !MatchAt(s, VideoPath, j) {
      assert s[j + 0] == a[j];
      assert s[j + 0] !in head[0];
    }
  }

  lemma {:induction false} B23Capture(id: string)
    requires AlnumId(id)
    ensures BilibiliVideoId("https://b23.tv/" + id) == Some(id)
  {
    var a := "https://";
    var s := a + "b23.tv/" + id;
    assert s == "https://b23.tv/" + id;
    B23HasNoVideoPath(id);
    assert OccursAt(s, "b23.tv/", 8) by {
      assert s[8..15] == "b23.tv/";
    }
    assert s[15] == id[0];
    LiteralMatchAt(s, "b23.tv/", B23Path.stops, true, 8);
    forall j | 0 <= j < 8 ensures s[j] !in B23Path.head[0] {
      assert s[j] == a[j];
    }
    assert s[15..] == id;
    CaptureIsTail(s, B23Path, 8, id);
  }
}

=== FILE: upstream.dfy ===
/** The upstream services' JSON bodies, as far as the handlers read them, and
    the mappers and strategies that the Vercel handler and the per-platform
    modules share word for word. A field the code reads with `||` or `?.` is
    an `Option`; a list the code calls `.map` or `.filter` on is an
    `Option<seq<...>>`, `None` standing for missing or not an array. */
module Upstream {
  import opened Js
  import opened Seqs
  import opened Media
  import opened Chain

  /** One `fetch` followed by `response.json()`. `Failed` covers a transport
      error, a response with `ok` false when the code checks it, and a body
      that is not JSON: each of them throws inside the strategy. */
  datatype Fetch<+R> = Failed | Received(body: R)

  // ---------------------------------------------------------------------------
  // y2mate

  /** One value of `data.links.mp4`. */
  datatype Y2mateItem = Y2mateItem(f: Option<string>, q: Option<string>, size: Option<string>, url: Option<string>)

  datatype Y2mateLinks = Y2mateLinks(mp4: Option<seq<Y2mateItem>>)

  /** `data.links.mp4` is an object; its values are listed here in the order
      `Object.keys` returns them. */
  datatype Y2mateData = Y2mateData(links: Option<Y2mateLinks>, title: Option<string>, thumbnail: Option<string>, a: Option<string>)

  /** `data.links && data.links.mp4`: the item list, if both are present. */
  function Y2mateItems(data: Y2mateData): Option<seq<Y2mateItem>> {
    if data.links.Some? then data.links.value.mp4 else None
  }

  /** `item.f === 'mp4'`. */
  predicate IsMp4Item(item: Y2mateItem) {
    item.f == Some(Mp4)
  }

  function Y2mateFormat(item: Y2mateItem): Format {
    Mp4Format(Or(item.q, Unknown), Or(item.size, Unknown), Or(item.url, ""))
  }

  /** The `forEach` that pushes one format per mp4 item. */
  function Y2mateFormats(items: seq<Y2mateItem>): (r: seq<Format>)
    ensures |r| <= |items|
    ensures forall i :: 0 <= i < |r| ==> r[i].format == Mp4 && r[i].url.Some?
  {
    if items == [] then []
    else if IsMp4Item(items[0]) then [Y2mateFormat(items[0])] + Y2mateFormats(items[1..])
    else Y2mateFormats(items[1..])
  }

  /** The push loop is exactly "keep the mp4 items, then map each to a
      format": nothing else is dropped, nothing is reordered. */
  lemma {:induction false} Y2mateFormatsFilterMap(items: seq<Y2mateItem>)
    ensures Y2mateFormats(items) == Map(Filter(items, IsMp4Item), Y2mateFormat)
  {
    if items != [] {
      Y2mateFormatsFilterMap(items[1..]);
      MapAppend([items[0]], Filter(items[1..], IsMp4Item), Y2mateFormat);
    }
  }

  /** A missing or empty `url` becomes `''`, and the quality and size default
      to `未知`. */
  lemma Y2mateDefaults(item: Y2mateItem)
    ensures Y2mateFormat(item).url == Some("") <==> !Truthy(item.url)
    ensures !Truthy(item.q) ==> Y2mateFormat(item).quality == Unknown
    ensures !Truthy(item.size) ==> Y2mateFormat(item).size == Unknown
  {
  }

  // ---------------------------------------------------------------------------
  // 9xbuddy

  datatype BuddyItem = BuddyItem(quality: Option<string>, size: Option<string>, url: Option<string>)

  datatype BuddyBody = BuddyBody(mp4: Option<seq<BuddyItem>>, title: Option<string>, thumbnail: Option<string>)

  datatype BuddyData = BuddyData(data: Option<BuddyBody>)

  /** `data.data && data.data.mp4`. */
  function BuddyItems(data: BuddyData): Option<seq<BuddyItem>> {
    if data.data.Some? then data.data.value.mp4 else None
  }

  function BuddyFormat(item: BuddyItem): Format {
    Mp4Format(Or(item.quality, Unknown), Or(item.size, Unknown), Or(item.url, ""))
  }

  /** `data.data.mp4.map(...)`: one format per item, in order. */
  function BuddyFormats(items: seq<BuddyItem>): (r: seq<Format>)
    ensures |r| == |items|
    ensures forall i :: 0 <= i < |r| ==> r[i].format == Mp4
    ensures forall i :: 0 <= i < |r| ==> (r[i].url == Some("") <==> !Truthy(items[i].url))
    ensures forall i :: 0 <= i < |r| ==> (r[i].quality == Unknown <==> !Truthy(items[i].quality) || items[i].quality == Some(Unknown))
    ensures forall i :: 0 <= i < |r| && Truthy(items[i].quality) ==> r[i].quality == items[i].quality.value
    ensures forall i :: 0 <= i < |r| && Truthy(items[i].url) ==> r[i].url == items[i].url
    ensures forall i :: 0 <= i < |r| && Truthy(items[i].size) ==> r[i].size == items[i].size.value
    ensures forall i :: 0 <= i < |r| && !Truthy(items[i].size) ==> r[i].size == Unknown
  {
    Map(items, BuddyFormat)
  }

  // ---------------------------------------------------------------------------
  // injahow (`api.injahow.cn/bparse`)

  /** One entry of `durl`. `size` is a byte count. */
  datatype DurlItem = DurlItem(url: Option<string>, size: Option<nat>)

  datatype InjahowBody = InjahowBody(durl: Option<seq<DurlItem>>)

  datatype InjahowData = InjahowData(data: Option<InjahowBody>, title: Option<string>, author: Option<string>)

  /** The quality label injahow's formats get from their position. */
  function IndexLabel(index: nat): (r: string)
    ensures index == 0 <==> r == "高清"
    ensures index == 1 <==> r == "标清"
    ensures index >= 2 <==> r == Unknown
  {
    if index == 0 then "高清" else if index == 1 then "标清" else Unknown
  }

  function InjahowFormats(durl: seq<DurlItem>): (r: seq<Format>)
    ensures |r| == |durl|
    ensures forall i :: 0 <= i < |r| ==> r[i] == Format(IndexLabel(i), Mp4, Unknown, durl[i].url)
  {
    seq(|durl|, i requires 0 <= i < |durl| => Format(IndexLabel(i), Mp4, Unknown, durl[i].url))
  }

  /** `data.data && data.data.durl`. */
  function InjahowDurl(data: InjahowData): Option<seq<DurlItem>> {
    if data.data.Some? then data.data.value.durl else None
  }

  /** The injahow strategy: it succeeds whenever `data.data.durl` is present,
      even when it is empty. */
  function Injahow(videoId: string, fetch: Fetch<InjahowData>): (r: Outcome<VideoInfo>)
    ensures r.Ok? <==> fetch.Received? && InjahowDurl(fetch.body).Some?
    ensures r.Ok? ==> r.value.id == videoId && r.value.apiSource.None? && r.value.thumbnail.None?
    ensures r.Ok? ==> |r.value.formats| == |InjahowDurl(fetch.body).value|
    ensures r.Ok? ==> r.value.formats == InjahowFormats(InjahowDurl(fetch.body).value)
    ensures r.Ok? ==> r.value.title == Or(fetch.body.title, BilibiliTitle(videoId))
    ensures r.Ok? ==> r.value.uploader == Or(fetch.body.author, BilibiliUploader)
  {
    match fetch
    case Failed => Fail
    case Received(data) =>
      match InjahowDurl(data)
      case None => Fail
      case Some(durl) =>
        Ok(VideoInfo(videoId, Or(data.title, BilibiliTitle(videoId)), Or(data.author, BilibiliUploader),
                     None, InjahowFormats(durl), None))
  }

  // ---------------------------------------------------------------------------
  // BiliGet (`bili.iiilab.com`)

  /** One entry of `pages`; its `cid` only goes into the play URL. */
  datatype Page = Page(cid: Option<int>)

  /** `data.data`: `ownerName` is `owner?.name`. */
  datatype BiliGetVideo = BiliGetVideo(title: Option<string>, ownerName: Option<string>, pages: Option<seq<Page>>)

  datatype BiliGetInfo = BiliGetInfo(code: Option<int>, data: Option<BiliGetVideo>)

  datatype BiliGetPlayBody = BiliGetPlayBody(url: Option<string>)

  datatype BiliGetPlay = BiliGetPlay(code: Option<int>, data: Option<BiliGetPlayBody>)

  /** `code === 0 && data`: the info response is usable. */
  predicate InfoUsable(info: BiliGetInfo) {
    info.code == Some(0) && info.data.Some?
  }

  /** `videoInfo.pages && videoInfo.pages.length > 0`. */
  predicate HasPages(video: BiliGetVideo) {
    video.pages.Some? && |video.pages.value| > 0
  }

  /** `playData.code === 0 && playData.data && playData.data.url`. */
  predicate PlayUsable(play: BiliGetPlay) {
    play.code == Some(0) && play.data.Some? && Truthy(play.data.value.url)
  }

  /** The formats BiliGet collects: the play URL of `pages[0]`, when the play
      request gives one. The play request is made only when there are pages;
      it is not checked for `ok`, but a failed request or a body that is not
      JSON throws. */
  function BiliGetFormats(video: BiliGetVideo, play: Fetch<BiliGetPlay>): (r: Outcome<seq<Format>>)
    ensures r.Fail? <==> HasPages(video) && play.Failed?
    ensures r.Ok? ==> |r.value| <= 1
    ensures r.Ok? && |r.value| == 1 <==> HasPages(video) && play.Received? && PlayUsable(play.body)
  {
    if !HasPages(video) then Ok([])
    else
      match play
      case Failed => Fail
      case Received(p) =>
        if PlayUsable(p) then Ok([Mp4Format("高清", Unknown, p.data.value.url.value)]) else Ok([])
  }

  /** The BiliGet strategy: it throws when the info response is unusable and
      when no format was found. */
  function BiliGet(videoId: string, info: Fetch<BiliGetInfo>, play: Fetch<BiliGetPlay>): (r: Outcome<VideoInfo>)
    ensures r.Ok? <==>
      && info.Received? && InfoUsable(info.body)
      && HasPages(info.body.data.value) && play.Received? && PlayUsable(play.body)
    ensures r.Ok? ==> r.value.id == videoId && |r.value.formats| == 1 && r.value.apiSource.None?
    ensures r.Ok? ==> r.value.formats[0] == Mp4Format("高清", Unknown, play.body.data.value.url.value)
    ensures r.Ok? ==> r.value.title == Or(info.body.data.value.title, BilibiliTitle(videoId))
    ensures r.Ok? ==> r.value.uploader == Or(info.body.data.value.ownerName, BilibiliUploader)
    ensures r.Ok? ==> r.value.thumbnail.None?
  {
    match info
    case Failed => Fail
    case Received(data) =>
      if !InfoUsable(data) then Fail
      else
        var video := data.data.value;
        match BiliGetFormats(video, play)
        case Fail => Fail
        case Ok(formats) =>
          if |formats| == 0 then Fail
          else Ok(VideoInfo(videoId, Or(video.title, BilibiliTitle(videoId)), Or(video.ownerName, BilibiliUploader),
                            None, formats, None))
  }

  /** Without pages the play request never runs: its result cannot matter. */
  lemma BiliGetPlayUnused(videoId: string, info: Fetch<BiliGetInfo>, play1: Fetch<BiliGetPlay>, play2: Fetch<BiliGetPlay>)
    requires info.Received? && InfoUsable(info.body) && !HasPages(info.body.data.value)
    ensures BiliGet(videoId, info, play1) == BiliGet(videoId, info, play2) == Fail
  {
  }
}

=== FILE: vercel.dfy ===
/** `vercel-api/api/video-info.js`: the serverless handler with its own
    two-strategy chains that end in a static list instead of an error, and
    the result cache in front of them. */
module VercelVideoInfo {
  import opened Js
  import opened Media
  import opened Chain
  import opened Upstream
  import opened Classifier
  import opened TtlCache

  // ---------------------------------------------------------------------------
  // YouTube

  /** The y2mate strategy of this handler: the mp4 items in `Object.keys`
      order, unsorted, with the uploader taken from `data.a`. */
  function Y2mate(videoId: string, fetch: Fetch<Y2mateData>): (r: Outcome<VideoInfo>)
    ensures r.Ok? <==> fetch.Received? && Y2mateItems(fetch.body).Some?
    ensures r.Ok? ==> r.value.id == videoId && r.value.apiSource.None?
    ensures r.Ok? ==> r.value.title == Or(fetch.body.title, YouTubeTitle(videoId))
    ensures r.Ok? ==> r.value.uploader == Or(fetch.body.a, YouTubeUploader)
    ensures r.Ok? ==> r.value.thumbnail == Some(Or(fetch.body.thumbnail, DefaultThumbnail(videoId)))
    ensures r.Ok? ==> r.value.formats == Y2mateFormats(Y2mateItems(fetch.body).value)
  {
    match fetch
    case Failed => Fail
    case Received(data) =>
      match Y2mateItems(data)
      case None => Fail
      case Some(items) =>
        Ok(VideoInfo(videoId, Or(data.title, YouTubeTitle(videoId)), Or(data.a, YouTubeUploader),
                     Some(Or(data.thumbnail, DefaultThumbnail(videoId))), Y2mateFormats(items), None))
  }

  /** The 9xbuddy strategy of this handler: no thumbnail. */
  function Buddy(videoId: string, fetch: Fetch<BuddyData>): (r: Outcome<VideoInfo>)
    ensures r.Ok? <==> fetch.Received? && BuddyItems(fetch.body).Some?
    ensures r.Ok? ==> r.value.id == videoId && r.value.uploader == YouTubeUploader
    ensures r.Ok? ==> r.value.thumbnail.None? && r.value.apiSource.None?
    ensures r.Ok? ==> r.value.title == Or(fetch.body.data.value.title, YouTubeTitle(videoId))
    ensures r.Ok? ==> r.value.formats == BuddyFormats(BuddyItems(fetch.body).value)
  {
    match fetch
    case Failed => Fail
    case Received(data) =>
      match BuddyItems(data)
      case None => Fail
      case Some(items) =>
        Ok(VideoInfo(videoId, Or(data.data.value.title, YouTubeTitle(videoId)), YouTubeUploader,
                     None, BuddyFormats(items), None))
  }

  /** The last YouTube fallback: three download-site links. */
  function YouTubeStatic(videoId: string): (r: VideoInfo)
    ensures r.id == videoId && r.title == YouTubeTitle(videoId) && r.uploader == YouTubeUploader
    ensures r.thumbnail.None? && r.apiSource.None?
    ensures |r.formats| == 3 && LinksTo(r.formats, videoId)
    ensures r.formats[0].quality == "高清" && r.formats[1].quality == "标清" && r.formats[2].quality == "原始质量"
    ensures forall i :: 0 <= i < 3 ==> r.formats[i].size == Unknown
  {
    VideoInfo(videoId, YouTubeTitle(videoId), YouTubeUploader, None,
      [SiteFormat("高清", Unknown, Y2mateSite, videoId),
       SiteFormat("标清", Unknown, BuddySite, videoId),
       SiteFormat("原始质量", Unknown, SsYouTubeSite, videoId)],
      None)
  }

  /** `getYouTubeVideoInfo` of this handler: y2mate, then 9xbuddy, then the
      static list. It never throws. */
  function YouTubeInfo(videoId: string, y2mate: Fetch<Y2mateData>, buddy: Fetch<BuddyData>): (r: VideoInfo)
    ensures r.id == videoId && r.apiSource.None?
    ensures Y2mate(videoId, y2mate).Ok? ==> r == Y2mate(videoId, y2mate).value
    ensures Y2mate(videoId, y2mate).Fail? && Buddy(videoId, buddy).Ok? ==> r == Buddy(videoId, buddy).value
    ensures Y2mate(videoId, y2mate).Fail? && Buddy(videoId, buddy).Fail? ==> r == YouTubeStatic(videoId)
  {
    Fallback2(Y2mate(videoId, y2mate), Buddy(videoId, buddy), YouTubeStatic(videoId))
  }

  // ---------------------------------------------------------------------------
  // Bilibili

  /** The last Bilibili fallback: three download-site links. */
  function BilibiliStatic(videoId: string): (r: VideoInfo)
    ensures r.id == videoId && r.title == BilibiliTitle(videoId) && r.uploader == BilibiliUploader
    ensures r.thumbnail.None? && r.apiSource.None?
    ensures |r.formats| == 3 && LinksTo(r.formats, videoId)
    ensures r.formats[0].quality == "高清" && r.formats[1].quality == "标清" && r.formats[2].quality == "原始质量"
    ensures forall i :: 0 <= i < 3 ==> r.formats[i].size == Unknown
  {
    VideoInfo(videoId, BilibiliTitle(videoId), BilibiliUploader, None,
      [SiteFormat("高清", Unknown, XbeibeixSite, videoId),
       SiteFormat("标清", Unknown, BiliIiilabSite, videoId),
       SiteFormat("原始质量", Unknown, InjahowSite, videoId)],
      None)
  }

  /** `getBilibiliVideoInfo` of this handler: injahow, then BiliGet, then the
      static list. It never throws. */
  function BilibiliInfo(videoId: string, injahow: Fetch<InjahowData>, info: Fetch<BiliGetInfo>, play: Fetch<BiliGetPlay>): (r: VideoInfo)
    ensures r.id == videoId && r.apiSource.None?
    ensures Injahow(videoId, injahow).Ok? ==> r == Injahow(videoId, injahow).value
    ensures Injahow(videoId, injahow).Fail? && BiliGet(videoId, info, play).Ok? ==> r == BiliGet(videoId, info, play).value
    ensures Injahow(videoId, injahow).Fail? && BiliGet(videoId, info, play).Fail? ==> r == BilibiliStatic(videoId)
  {
    Fallback2(Injahow(videoId, injahow), BiliGet(videoId, info, play), BilibiliStatic(videoId))
  }

  // ---------------------------------------------------------------------------
  // The handler

  /** The upstream responses one request would see. */
  datatype Upstreams = Upstreams(
    y2mate: Fetch<Y2mateData>,
    buddy: Fetch<BuddyData>,
    injahow: Fetch<InjahowData>,
    biliGetInfo: Fetch<BiliGetInfo>,
    biliGetPlay: Fetch<BiliGetPlay>)

  /** The response for a URL that missed the cache, before `apiSource` is set. */
  function Lookup(url: string, u: Upstreams): (r: Response)
    ensures r.BadRequest? <==> !Classify(url).Video?
    ensures Classify(url) == Unsupported ==> r == BadRequest(UnsupportedPlatform)
    ensures Classify(url) == NoVideoId(YouTube) ==> r == BadRequest(NoYouTubeId)
    ensures Classify(url) == NoVideoId(Bilibili) ==> r == BadRequest(NoBilibiliId)
    ensures r.Success? ==> r.body.id == Classify(url).id
    ensures Classify(url).Video? && Classify(url).platform == YouTube ==>
      r == Success(YouTubeInfo(Classify(url).id, u.y2mate, u.buddy))
    ensures Classify(url).Video? && Classify(url).platform == Bilibili ==>
      r == Success(BilibiliInfo(Classify(url).id, u.injahow, u.biliGetInfo, u.biliGetPlay))
  {
    var c := Classify(url);
    match c
    case Unsupported => BadRequest(UnsupportedPlatform)
    case NoVideoId(YouTube) => BadRequest(NoYouTubeId)
    case NoVideoId(Bilibili) => BadRequest(NoBilibiliId)
    case Video(YouTube, id) => Success(YouTubeInfo(id, u.y2mate, u.buddy))
    case Video(Bilibili, id) => Success(BilibiliInfo(id, u.injahow, u.biliGetInfo, u.biliGetPlay))
  }

  /** The handler for one `GET ?url=...`. `query` is `req.query.url`; `now`
      is `Date.now()` at the cache lookup and `storedAt` at the cache store.
      It returns the response and the cache after the request. */
  function Handle(store: Store<VideoInfo>, query: Option<string>, now: int, storedAt: int, u: Upstreams): (r: (Response, Store<VideoInfo>))
    ensures !Truthy(query) ==> r == (BadRequest(MissingUrl), store)
    ensures Truthy(query) && Get(store, Key(query.value), now).Hit? ==>
      r == (Success(store[Key(query.value)].data), store)
    ensures Truthy(query) && Get(store, Key(query.value), now).Miss? ==>
      var rest := Get(store, Key(query.value), now).store;
      && (r.0.BadRequest? <==> !Classify(query.value).Video?)
      && (r.0.BadRequest? ==> r.1 == rest)
      && (r.0.Success? ==> r.0.body.apiSource == Some(VercelSource) && r.0.body.id == Classify(query.value).id)
      && (r.0.Success? ==> r.1 == Put(rest, Key(query.value), r.0.body, storedAt))
      && (r.0.BadRequest? ==> r.0 == Lookup(query.value, u))
      && (r.0.Success? ==> r.0.body == Lookup(query.value, u).body.(apiSource := Some(VercelSource)))
  {
    if !Truthy(query) then (BadRequest(MissingUrl), store)
    else
      var key := Key(query.value);
      match Get(store, key, now)
      case Hit(data) => (Success(data), store)
      case Miss(rest) =>
        match Lookup(query.value, u)
        case BadRequest(error) => (BadRequest(error), rest)
        case Success(info) =>
          var tagged := info.(apiSource := Some(VercelSource));
          (Success(tagged), Put(rest, key, tagged, storedAt))
  }

  // ---------------------------------------------------------------------------
  // Properties of the handler and its cache

  /** What the cache may hold: entries under `video:<url>` for URLs that name
      a video, each the tagged answer for that video's id. */
  predicate CacheInvariant(store: Store<VideoInfo>) {
    forall k :: k in store ==> |k| >= 6 && k[..6] == "video:" && Answers(k[6..], store[k].data)
  }

  /** `info` is a tagged answer for the video `url` names. */
  predicate Answers(url: string, info: VideoInfo) {
    Classify(url).Video? && info.id == Classify(url).id && info.apiSource == Some(VercelSource)
  }

  /** Every request keeps the cache invariant: errors are never cached. */
  lemma {:induction false} HandleKeepsInvariant(store: Store<VideoInfo>, query: Option<string>, now: int, storedAt: int, u: Upstreams)
    requires CacheInvariant(store)
    ensures CacheInvariant(Handle(store, query, now, storedAt, u).1)
  {
    var r := Handle(store, query, now, storedAt, u);
    if Truthy(query) && Get(store, Key(query.value), now).Miss? {
      var rest := Get(store, Key(query.value), now).store;
      MissKeepsInvariant(store, Key(query.value), now);
      if r.0.Success? {
        assert r.1 == Put(rest, Key(query.value), r.0.body, storedAt);
        PutKeepsInvariant(rest, query.value, r.0.body, storedAt);
      } else {
        assert r.1 == rest;
      }
    } else {
      assert r.1 == store;
    }
  }

  /** Deleting a stale entry keeps the invariant. */
  lemma MissKeepsInvariant(store: Store<VideoInfo>, key: string, now: int)
    requires CacheInvariant(store) && Get(store, key, now).Miss?
    ensures CacheInvariant(Get(store, key, now).store)
  {
    var rest := Get(store, key, now).store;
    forall k | k in rest
      ensures |k| >= 6 && k[..6] == "video:" && Answers(k[6..], rest[k].data)
    {
      assert k in store && rest[k] == store[k];
    }
  }

  /** Storing the tagged answer for a URL that names a video keeps the
      invariant. */
  lemma PutKeepsInvariant(store: Store<VideoInfo>, url: string, info: VideoInfo, storedAt: int)
    requires CacheInvariant(store)
    requires Answers(url, info)
    ensures CacheInvariant(Put(store, Key(url), info, storedAt))
  {
    var key := Key(url);
    var after := Put(store, key, info, storedAt);
    assert key[..6] == "video:" && key[6..] == url;
    forall k | k in after
      ensures |k| >= 6 && k[..6] == "video:" && Answers(k[6..], after[k].data)
    {
      if k != key {
        assert k in store;
      }
    }
  }

  /** With the invariant, the cache never changes which requests fail: the
      answer is an error exactly when the URL is missing or names no video,
      and a success always describes the video the URL names. */
  lemma {:induction false} CacheTransparent(store: Store<VideoInfo>, query: Option<string>, now: int, storedAt: int, u: Upstreams)
    requires CacheInvariant(store)
    ensures Handle(store, query, now, storedAt, u).0.BadRequest? <==> !Truthy(query) || !Classify(query.value).Video?
    ensures Handle(store, query, now, storedAt, u).0.Success? ==>
      Handle(store, query, now, storedAt, u).0.body.id == Classify(query.value).id
      && Handle(store, query, now, storedAt, u).0.body.apiSource == Some(VercelSource)
  {
    if Truthy(query) {
      var key := Key(query.value);
      if Get(store, key, now).Hit? {
        assert key in store;
        assert key[6..] == query.value;
      }
    }
  }

  /** A second request for the same URL within the hour gets the first
      answer, whatever the upstreams say by then. */
  lemma {:induction false} WarmCacheServes(store: Store<VideoInfo>, url: string, now1: int, storedAt: int, now2: int, u1: Upstreams, u2: Upstreams, storedAt2: int)
    requires url != ""
    requires Handle(store, Some(url), now1, storedAt, u1).0.Success?
    requires now2 - storedAt < Ttl
    requires !Get(store, Key(url), now1).Hit?
    ensures Handle(Handle(store, Some(url), now1, storedAt, u1).1, Some(url), now2, storedAt2, u2)
      == (Handle(store, Some(url), now1, storedAt, u1).0, Handle(store, Some(url), now1, storedAt, u1).1)
  {
    var first := Handle(store, Some(url), now1, storedAt, u1);
    var key := Key(url);
    var rest := Get(store, key, now1).store;
    assert first.1 == Put(rest, key, first.0.body, storedAt);
    PutThenGet(rest, key, first.0.body, storedAt, now2);
  }

  /** A stale entry is treated as absent: the answer and the resulting cache
      are those of a cache without it. */
  lemma {:induction false} StaleEntryIgnored(store: Store<VideoInfo>, url: string, now: int, storedAt: int, u: Upstreams)
    requires url != "" && Key(url) in store && now - store[Key(url)].timestamp >= Ttl
    ensures Handle(store, Some(url), now, storedAt, u) == Handle(store - {Key(url)}, Some(url), now, storedAt, u)
  {
    var key := Key(url);
    assert Get(store, key, now).store == Get(store - {key}, key, now).store;
  }
}

=== FILE: youtube.dfy ===
/** `api/youtube.js`: four YouTube strategies tried in order, the last
    failure rethrown, and a static list of download-site links. */
module YouTubeApi {
  import opened Js
  import opened Seqs
  import opened Media
  import opened Chain
  import opened Upstream
  import opened QualitySort

  // ---------------------------------------------------------------------------
  // y2mate

  /** `getY2mateLinks`: the mp4 items as formats, best quality first. */
  function Y2mate(videoId: string, fetch: Fetch<Y2mateData>): (r: Outcome<VideoInfo>)
    ensures r.Ok? <==> fetch.Received? && Y2mateItems(fetch.body).Some?
    ensures r.Ok? ==> r.value.id == videoId && r.value.uploader == YouTubeUploader && r.value.apiSource.None?
    ensures r.Ok? ==> r.value.title == Or(fetch.body.title, YouTubeTitle(videoId))
    ensures r.Ok? ==> r.value.thumbnail == Some(Or(fetch.body.thumbnail, DefaultThumbnail(videoId)))
    ensures r.Ok? ==> multiset(r.value.formats) == multiset(Y2mateFormats(Y2mateItems(fetch.body).value))
    ensures r.Ok? ==> NonIncreasing(r.value.formats, Rank)
    ensures r.Ok? ==> forall k :: OfRank(r.value.formats, Rank, k) == OfRank(Y2mateFormats(Y2mateItems(fetch.body).value), Rank, k)
  {
    match fetch
    case Failed => Fail
    case Received(data) =>
      match Y2mateItems(data)
      case None => Fail
      case Some(items) =>
        Ok(VideoInfo(videoId, Or(data.title, YouTubeTitle(videoId)), YouTubeUploader,
                     Some(Or(data.thumbnail, DefaultThumbnail(videoId))),
                     SortByQuality(Y2mateFormats(items)), None))
  }

  // ---------------------------------------------------------------------------
  // 9xbuddy

  /** `get9xBuddyLinks`: one format per `data.data.mp4` item. */
  function Buddy(videoId: string, fetch: Fetch<BuddyData>): (r: Outcome<VideoInfo>)
    ensures r.Ok? <==> fetch.Received? && BuddyItems(fetch.body).Some?
    ensures r.Ok? ==> r.value.id == videoId && r.value.uploader == YouTubeUploader && r.value.apiSource.None?
    ensures r.Ok? ==> r.value.title == Or(fetch.body.data.value.title, YouTubeTitle(videoId))
    ensures r.Ok? ==> r.value.thumbnail == Some(Or(fetch.body.data.value.thumbnail, DefaultThumbnail(videoId)))
    ensures r.Ok? ==> |r.value.formats| == |BuddyItems(fetch.body).value|
    ensures r.Ok? ==> r.value.formats == BuddyFormats(BuddyItems(fetch.body).value)
  {
    match fetch
    case Failed => Fail
    case Received(data) =>
      match BuddyItems(data)
      case None => Fail
      case Some(items) =>
        var body := data.data.value;
        Ok(VideoInfo(videoId, Or(body.title, YouTubeTitle(videoId)), YouTubeUploader,
                     Some(Or(body.thumbnail, DefaultThumbnail(videoId))), BuddyFormats(items), None))
  }

  // ---------------------------------------------------------------------------
  // ssyoutube

  /** One entry of `data.url`; `kind` is the item's `type` field. */
  datatype SsItem = SsItem(
    ext: Option<string>,
    kind: Option<string>,
    quality: Option<string>,
    subname: Option<string>,
    filesize: Option<nat>,
    url: Option<string>)

  datatype SsMeta = SsMeta(title: Option<string>, thumbnail: Option<string>, author: Option<string>)

  datatype SsData = SsData(url: Option<seq<SsItem>>, meta: Option<SsMeta>)

  /** `item.ext === 'mp4'`. */
  predicate IsMp4Ext(item: SsItem) {
    item.ext == Some(Mp4)
  }

  /** `item.ext === 'mp4' && item.type.includes('video')`. */
  predicate IsVideoItem(item: SsItem) {
    IsMp4Ext(item) && item.kind.Some? && Includes(item.kind.value, "video")
  }

  /** The filter reads `item.type` of every mp4 item; a missing one throws a
      `TypeError`, which fails the whole strategy. */
  predicate TypeMissing(items: seq<SsItem>) {
    exists i :: 0 <= i < |items| && IsMp4Ext(items[i]) && items[i].kind.None?
  }

  function SsFormat(item: SsItem): Format {
    Mp4Format(Or(item.quality, Or(item.subname, Unknown)), SizeLabel(item.filesize), Or(item.url, ""))
  }

  /** `data.meta?.title`. */
  function MetaTitle(meta: Option<SsMeta>): Option<string> {
    if meta.Some? then meta.value.title else None
  }

  /** `data.meta?.author`. */
  function MetaAuthor(meta: Option<SsMeta>): Option<string> {
    if meta.Some? then meta.value.author else None
  }

  /** `data.meta?.thumbnail`. */
  function MetaThumbnail(meta: Option<SsMeta>): Option<string> {
    if meta.Some? then meta.value.thumbnail else None
  }

  /** `getSSYoutubeLinks`: the mp4 video items as formats. */
  function Ss(videoId: string, fetch: Fetch<SsData>): (r: Outcome<VideoInfo>)
    ensures r.Ok? <==> fetch.Received? && fetch.body.url.Some? && !TypeMissing(fetch.body.url.value)
    ensures r.Ok? ==> r.value.id == videoId && r.value.apiSource.None?
    ensures r.Ok? ==> r.value.formats == SsFormats(fetch.body.url.value)
    ensures r.Ok? ==> r.value.title == Or(MetaTitle(fetch.body.meta), YouTubeTitle(videoId))
    ensures r.Ok? ==> r.value.uploader == Or(MetaAuthor(fetch.body.meta), YouTubeUploader)
    ensures r.Ok? ==> r.value.thumbnail == Some(Or(MetaThumbnail(fetch.body.meta), DefaultThumbnail(videoId)))
  {
    match fetch
    case Failed => Fail
    case Received(data) =>
      match data.url
      case None => Fail
      case Some(items) =>
        if TypeMissing(items) then Fail
        else
          Ok(VideoInfo(videoId, Or(MetaTitle(data.meta), YouTubeTitle(videoId)),
                       Or(MetaAuthor(data.meta), YouTubeUploader),
                       Some(Or(MetaThumbnail(data.meta), DefaultThumbnail(videoId))),
                       SsFormats(items), None))
  }

  /** The `filter(...).map(...)` of ssyoutube. */
  function SsFormats(items: seq<SsItem>): seq<Format> {
    Map(Filter(items, IsVideoItem), SsFormat)
  }

  /** `f` is the format of one of the mp4 video items. */
  predicate FromVideoItem(items: seq<SsItem>, f: Format) {
    exists j :: 0 <= j < |items| && IsVideoItem(items[j]) && f == SsFormat(items[j])
  }

  /** ssyoutube keeps exactly the mp4 video items: every format comes from
      one of them, and each of them yields a format. */
  lemma SsKeepsVideoItems(items: seq<SsItem>)
    ensures forall i :: 0 <= i < |SsFormats(items)| ==> FromVideoItem(items, SsFormats(items)[i])
    ensures forall j :: 0 <= j < |items| && IsVideoItem(items[j]) ==> SsFormat(items[j]) in SsFormats(items)
  {
    var kept := Filter(items, IsVideoItem);
    var formats := SsFormats(items);
    FilterMembers(items, IsVideoItem);
    forall i | 0 <= i < |SsFormats(items)|
      ensures FromVideoItem(items, SsFormats(items)[i])
    {
      assert kept[i] in items && IsVideoItem(kept[i]);
      var j :| 0 <= j < |items| && items[j] == kept[i];
      assert formats[i] == SsFormat(items[j]);
    }
    forall j | 0 <= j < |items| && IsVideoItem(items[j]) ensures SsFormat(items[j]) in formats {
      var i :| 0 <= i < |kept| && kept[i] == items[j];
      assert formats[i] == SsFormat(items[j]);
    }
  }

  // ---------------------------------------------------------------------------
  // savefrom

  /** One entry of `data.links`; `kind` is its `type` field. */
  datatype SfItem = SfItem(kind: Option<string>, quality: Option<string>, size: Option<string>, url: Option<string>)

  datatype SfData = SfData(links: Option<seq<SfItem>>, title: Option<string>, thumb: Option<string>, uploader: Option<string>)

  /** `item.type === 'mp4'`. */
  predicate IsMp4Link(item: SfItem) {
    item.kind == Some(Mp4)
  }

  function SfFormat(item: SfItem): Format {
    Mp4Format(Or(item.quality, Unknown), Or(item.size, Unknown), Or(item.url, ""))
  }

  /** `getSaveFromLinks`: the mp4 links as formats, in their order. */
  function SaveFrom(videoId: string, fetch: Fetch<SfData>): (r: Outcome<VideoInfo>)
    ensures r.Ok? <==> fetch.Received? && fetch.body.links.Some?
    ensures r.Ok? ==> r.value.id == videoId && r.value.apiSource.None?
    ensures r.Ok? ==> r.value.formats == Map(Filter(fetch.body.links.value, IsMp4Link), SfFormat)
    ensures r.Ok? ==> r.value.title == Or(fetch.body.title, YouTubeTitle(videoId))
    ensures r.Ok? ==> r.value.uploader == Or(fetch.body.uploader, YouTubeUploader)
    ensures r.Ok? ==> r.value.thumbnail == Some(Or(fetch.body.thumb, DefaultThumbnail(videoId)))
  {
    match fetch
    case Failed => Fail
    case Received(data) =>
      match data.links
      case None => Fail
      case Some(links) =>
        Ok(VideoInfo(videoId, Or(data.title, YouTubeTitle(videoId)), Or(data.uploader, YouTubeUploader),
                     Some(Or(data.thumb, DefaultThumbnail(videoId))),
                     Map(Filter(links, IsMp4Link), SfFormat), None))
  }

  /** savefrom drops exactly the links that are not mp4: with only mp4 links
      nothing is dropped, and the kept links keep their order across any
      split of the list. */
  lemma SaveFromKeepsOrder(links: seq<SfItem>, more: seq<SfItem>)
    ensures Filter(links, IsMp4Link) == links <==> forall i :: 0 <= i < |links| ==> IsMp4Link(links[i])
    ensures Filter(links + more, IsMp4Link) == Filter(links, IsMp4Link) + Filter(more, IsMp4Link)
  {
    FilterKeepsAll(links, IsMp4Link);
    FilterAppend(links, more, IsMp4Link);
  }

  // ---------------------------------------------------------------------------
  // The chain

  /** The upstream responses one call of `getYouTubeVideoInfo` would see. */
  datatype Upstreams = Upstreams(y2mate: Fetch<Y2mateData>, buddy: Fetch<BuddyData>, ss: Fetch<SsData>, saveFrom: Fetch<SfData>)

  function Attempts(videoId: string, u: Upstreams): seq<Outcome<VideoInfo>> {
    [Y2mate(videoId, u.y2mate), Buddy(videoId, u.buddy), Ss(videoId, u.ss), SaveFrom(videoId, u.saveFrom)]
  }

  /** `getYouTubeVideoInfo`: y2mate, 9xbuddy, ssyoutube, savefrom; the first
      that returns wins, and `Fail` stands for the final
      `无法获取YouTube视频下载链接` error. */
  function GetVideoInfo(videoId: string, u: Upstreams): (r: Outcome<VideoInfo>)
    ensures r.Fail? <==>
      Y2mate(videoId, u.y2mate).Fail? && Buddy(videoId, u.buddy).Fail?
      && Ss(videoId, u.ss).Fail? && SaveFrom(videoId, u.saveFrom).Fail?
    ensures Y2mate(videoId, u.y2mate).Ok? ==> r == Y2mate(videoId, u.y2mate)
    ensures Y2mate(videoId, u.y2mate).Fail? && Buddy(videoId, u.buddy).Ok? ==> r == Buddy(videoId, u.buddy)
    ensures Y2mate(videoId, u.y2mate).Fail? && Buddy(videoId, u.buddy).Fail? && Ss(videoId, u.ss).Ok? ==> r == Ss(videoId, u.ss)
    ensures Y2mate(videoId, u.y2mate).Fail? && Buddy(videoId, u.buddy).Fail? && Ss(videoId, u.ss).Fail? ==>
      r == SaveFrom(videoId, u.saveFrom)
    ensures r.Ok? ==> r.value.id == videoId
  {
    var a := Attempts(videoId, u);
    assert a[0] == Y2mate(videoId, u.y2mate) && a[1] == Buddy(videoId, u.buddy);
    assert a[2] == Ss(videoId, u.ss) && a[3] == SaveFrom(videoId, u.saveFrom);
    FirstOk(a)
  }

  /** Once y2mate succeeds, nothing after it runs: the other upstreams cannot
      change the answer. */
  lemma {:induction false} Y2mateWins(videoId: string, u: Upstreams, others: Upstreams)
    requires Y2mate(videoId, u.y2mate).Ok?
    ensures GetVideoInfo(videoId, u) == GetVideoInfo(videoId, others.(y2mate := u.y2mate))
  {
    var v := others.(y2mate := u.y2mate);
    var w := Y2mate(videoId, u.y2mate).value;
    FirstOkPrefix([], w, Attempts(videoId, u)[1..], Attempts(videoId, v)[1..]);
    assert Attempts(videoId, u) == [] + [Ok(w)] + Attempts(videoId, u)[1..];
    assert Attempts(videoId, v) == [] + [Ok(w)] + Attempts(videoId, v)[1..];
  }

  // ---------------------------------------------------------------------------
  // Static fallback

  const FallbackQualities: seq<string> := ["720p", "1080p", "最高质量"]

  /** `fallbackYouTubeDownload`: three download-site links for the id. */
  function FallbackDownload(videoId: string): (r: VideoInfo)
    ensures r.id == videoId && r.title == YouTubeTitle(videoId) && r.uploader == YouTubeUploader
    ensures r.thumbnail == Some(DefaultThumbnail(videoId)) && r.apiSource.None?
    ensures |r.formats| == 3 && LinksTo(r.formats, videoId)
    ensures forall i :: 0 <= i < 3 ==> r.formats[i].quality == FallbackQualities[i] && r.formats[i].size == Unknown
  {
    VideoInfo(videoId, YouTubeTitle(videoId), YouTubeUploader, Some(DefaultThumbnail(videoId)),
      [SiteFormat("720p", Unknown, Y2mateSite, videoId),
       SiteFormat("1080p", Unknown, BuddySite, videoId),
       SiteFormat("最高质量", Unknown, SsYouTubeSite, videoId)],
      None)
  }
}
